=== FILE: README.md ===
# cs404x auction arena in Dafny

A model of the sequential core of cs404x. cs404x is a server where bots play sealed-bid painting auctions against each other. The model has three parts.

- **The auction engine** (`Auctioneer`, module `Auctioneer`):
  - The roster of players is fixed. Each player has painting counts, a budget, a score and a current bid.
  - `start_round` resets every bid. `register_bid` accepts or rejects one bid.
  - `finish_round` ranks the players by bid, with a random tie-break key. The head of the ranking pays its own bid and gains the round's painting. Every score is then recomputed and the round is recorded.
  - A player whose counts, sorted from highest to lowest, dominate the sorted target collection scores 1. That sets the auction's win flag, which is never cleared.
  - `finished` holds at the last round index or once the win flag is set. `compute_auction_winners` returns the players whose score no other player exceeds.
  - The sorting and the collection test are in module `Scoring`.
- **The arena** (module `Arena`): the waiting queue, the in-game participants keyed by user id, the running auction and the "enough players" signal.
  - `register`, `deregister` and `_start_if_possible` are modelled.
  - So are the game loop's steps: wake, the START broadcast, `_setup_auction`, the start of `_run_round` with its bid requests, `_on_bid_reply` with the bid barrier, the decision after the bid wait, and `_finish_auction`.
  - Each `async with` region of the source is one atomic transition.
  - The START broadcast is a step of its own, before the locked setup, as in the source. A connection registered between the two therefore joins the game without having received START, and its client fails on the first bid request (`Arena.LateJoinMissesStart`).
  - An arena invariant is proved for every step and for every run from a fresh arena. It says:
    - ids are unique;
    - the queue and the game are disjoint;
    - the game is keyed by id;
    - an auction runs exactly while the loop is past setup;
    - the auction keeps its own invariants: solvent, scores earned, win flag consistent.
- **The client** (module `Client`):
  - Each message handler is a pure step on `ClientState`, and `Run` models the client loop with its stop test.
  - A handler that raises in the source is an explicit `Crashed` outcome.
  - The message payloads are in module `Messages`.

Randomness is passed in as explicit inputs:
- the painting-order draws;
- the tie-break keys, one per player, which must be distinct;
- the bot built at START and the bid a bot answers with.

Budgets and bids are integers. The auction's start time is an opaque integer.

`_winner_pays` and `bid_position_to_pay` (cs404x/auctioneer.py:101, 167) suggest a k-th-price rule. The code, however, makes the `min(winner_pays, n)`-th ranked player the winner and charges it its own bid, so a larger rank would change who wins, not the price. The model follows the code with the rank it uses, 1, which makes the auction first-price.

`finished` holds at round index `RoundLimit - 1`, so at most 199 of the 200 drawn paintings are ever sold. `deregister` does not recompute the signal, and `_setup_auction` does not clear it. The model does the same.

## Model

| member | source | states |
|---|---|---|
| Auctioneer.NewParticipantState | cs404x/auctioneer.py:21-27 | a fresh player has each of the four painting kinds at count 0, score 0, the given budget and no bid yet |
| Auctioneer.NewAuction | cs404x/auctioneer.py:57-105 | the roster is exactly the given ids, each a fresh player with budget 1001. The painting order is the given one, or else the `RoundLimit` paintings the draws select, in draw order. The round is 0 with no history and no win flag. The new auction is well formed, solvent and not finished |
| Auctioneer.DrawPaintingOrder | cs404x/auctioneer.py:93-98 | the drawn order has one painting per draw, the artist the draw indexes |
| Auctioneer.View | cs404x/auctioneer.py:29-34 | a player as shown to the bots is its paintings, budget and score |
| Auctioneer.ViewHidesOnlyBid | cs404x/auctioneer.py:29-34 | two player states show the same view exactly when they differ at most in the current bid, so a sealed bid is never shown |
| Auctioneer.StartRound | cs404x/auctioneer.py:113-115 | every bid becomes 0 and nothing else changes. Well-formedness is kept, and a solvent auction then has every bid between 0 and its budget |
| Auctioneer.RegisterBidAsWritten | cs404x/auctioneer.py:135-141 | the bid is accepted iff it is at most the budget. The bid is stored if accepted and 0 otherwise. No other player and no other field changes |
| Auctioneer.StartRoundWithinBudget | cs404x/auctioneer.py:113-115 | after `start_round` on a solvent auction, every player has a bid not above its budget |
| Auctioneer.RegisterBidAsWrittenWithinBudget | cs404x/auctioneer.py:135-141 | the source's check keeps every bid at most its bidder's budget, and keeps the auction solvent |
| Auctioneer.ResolveRoundKeepsSolventAsWritten | cs404x/auctioneer.py:171-175 | when every bid is at most its bidder's budget, negative bids included, no budget is negative after the round: the engine as written never lets a budget go below zero |
| Auctioneer.RegisterBid | cs404x/auctioneer.py:135-141 | the corrected check: the bid is accepted iff it is between 0 and the budget. Otherwise it behaves as the source, and it keeps well-formedness, solvency and bids-in-range |
| Auctioneer.TopOf | cs404x/auctioneer.py:161-165 | every non-empty part of the roster has a member that outranks all the others by (bid, key) |
| Auctioneer.RoundWinner | cs404x/auctioneer.py:159-170 | the chosen winner outranks every other player by bid, then by tie-break key |
| Auctioneer.FinishRound | cs404x/auctioneer.py:143-180 | the winner heads the ranking, no player bid more than the amount paid, and the result is the round resolved with that winner |
| Auctioneer.ResolveRound | cs404x/auctioneer.py:143-157 | the summary names the winner, its bid, the round index, the round's painting and the start time. The round advances by exactly one, and exactly one winner id and one amount are appended. The roster, painting order, target and start time are unchanged |
| Auctioneer.ResolveRoundPaysWinner | cs404x/auctioneer.py:171-179 | the winner's budget drops by its own bid, its count of the round's painting rises by one, and its bid is kept |
| Auctioneer.ResolveRoundSparesOthers | cs404x/auctioneer.py:159-180 | every other player keeps its budget, its paintings and its bid |
| Auctioneer.ResolveRoundRescores | cs404x/auctioneer.py:182-211 | after the award, every score is the score of the player's owned paintings. The win flag is the old flag or "some player has score 1" |
| Auctioneer.ResolveRoundBudgetBounds | cs404x/auctioneer.py:171-175 | when every bid lies between 0 and its bidder's budget, every budget after the round lies between 0 and what it was |
| Auctioneer.ResolveRoundValid | cs404x/auctioneer.py:143-180 | resolution keeps the history lengths equal to the round index, every winner id on the roster, every collection covering every kind and every score at most 1 |
| Auctioneer.ResolveRoundKeepsCompletion | cs404x/auctioneer.py:177-211 | a player with a complete collection still scores 1 after any round, whether or not it wins |
| Auctioneer.ResolveRoundKeepsWonConsistent | cs404x/auctioneer.py:208-211 | if the win flag was set exactly when some player scored 1, and every 1 was earned by a complete collection, both still hold after the round |
| Auctioneer.ResolveRoundKeepsInvariants | cs404x/auctioneer.py:143-211 | with bids in range, resolution keeps the auction well formed, solvent, with earned scores and a consistent win flag |
| Auctioneer.UpdateScores | cs404x/auctioneer.py:182-211 | the roster is kept, every player is its old state with only the score replaced by the score of its paintings, and the win flag after rescoring is the old flag or "some player now scores 1" |
| Auctioneer.Award | cs404x/auctioneer.py:171-180 | the winner's budget drops by its bid and its count of the round's painting rises by one; every other player is unchanged; the winner and its bid are appended to the history |
| Auctioneer.ScoreOf | cs404x/auctioneer.py:190-211 | a score is 0 or 1; `ScoreMeansComplete` states when it is 1 |
| Auctioneer.Finished | cs404x/auctioneer.py:107-111 | the auction is finished at round index `RoundLimit - 1` or once the win flag is set |
| Auctioneer.CompletionFinishes | cs404x/auctioneer.py:107-111 | a player scoring 1 after a round sets the win flag, so the auction is finished whatever the round index |
| Scoring.Complete | cs404x/auctioneer.py:194-209 | the source's collection test itself: the largest of the target-minus-owned differences, both sorted high to low, is below one. `Scoring.CompleteIffDominates` states what it means |
| Auctioneer.ScoreMeansComplete | cs404x/auctioneer.py:190-211 | the score is 1 exactly when the largest shortfall of the sorted owned counts against the sorted target counts is below one |
| Auctioneer.GainKeepsComplete | cs404x/auctioneer.py:177-179 | gaining a painting of any kind keeps a dominating collection at score 1 |
| Auctioneer.DefaultTargetMetByOtherKinds | cs404x/auctioneer.py:190-211 | 3, 1, 3, 1 paintings complete the default target 3, 3, 1, 1: only the sorted counts matter |
| Auctioneer.DefaultTargetNeedsFourKinds | cs404x/auctioneer.py:190-211 | 4, 4, 0, 0 paintings do not complete the default target |
| Auctioneer.DefaultTargetOneShort | cs404x/auctioneer.py:190-211 | 3, 3, 1, 0 paintings do not complete the default target |
| Scoring.SortDescSorts | cs404x/auctioneer.py:194-201 | the insertion sort yields a non-increasing permutation of its input |
| Scoring.SortedUnique | cs404x/auctioneer.py:194-201 | two non-increasing sequences with the same elements are equal, so the sorted counts depend only on the multiset of counts |
| Scoring.CompleteIffDominates | cs404x/auctioneer.py:203-209 | "the largest shortfall is below one" holds iff the sorted owned counts are at least the sorted target counts at every position |
| Scoring.CompleteIgnoresOrder | cs404x/auctioneer.py:194-201 | the collection test gives the same answer for any reordering of the owned counts and of the target |
| Scoring.CompleteMonotone | cs404x/auctioneer.py:203-209 | raising any one owned count keeps a complete collection complete |
| Scoring.SortRaisesPointwise | cs404x/auctioneer.py:194-197 | after one count is raised by one, the sorted counts are at least the old sorted counts at every position |
| Auctioneer.ComputeAuctionWinners | cs404x/auctioneer.py:213-230 | the winners are empty iff there are no players, and otherwise they are exactly the players whose score no other player exceeds |
| Auctioneer.MaxScore | cs404x/auctioneer.py:222 | the maximum score is held by some player and bounds every player's score |
| Auctioneer.WinnersAreCompleters | cs404x/auctioneer.py:213-230 | once the win flag is set, the winners are exactly the players scoring 1 |
| Auctioneer.DrawMakesEveryoneWinner | cs404x/auctioneer.py:213-230 | without the win flag, every player on the roster is a winner |
| Auctioneer.Summary | cs404x/auctioneer.py:117-130 | the summary's current painting is the painting of the current round. The round index, history, painting order and target are copied. The winner-pays rank, round limit, starting budget and the value of every artist are the engine's constants |
| Auctioneer.NegativeBidsEnrichWinner | cs404x/auctioneer.py:135-141 | if every bid is negative, the round's winner ends the round with more money than it had |
| Auctioneer.TwoNegativeBids | cs404x/auctioneer.py:135-141 | the source's check accepts bids of -10 and -20 from the two players of a fresh auction |
| Auctioneer.NegativeBidRaisesBudget | cs404x/auctioneer.py:171-175 | after those bids, the player who bid -10 wins the round and its budget rises from 1001 to 1011 |
| Auctioneer.NegativeBidRejected | cs404x/auctioneer.py:135-141 | the corrected check turns the bid of -10 away |
| Arena.StartIfPossible | cs404x/arena.py:90-97 | the signal is set iff no auction runs and at least two participants wait. Nothing else changes |
| Arena.Deregister | cs404x/arena.py:56-64 | the participant is gone from the queue and from the game. Every other waiting participant and in-game entry stays. The auction, signal and loop position are untouched |
| Arena.DeregisterIdempotent | cs404x/arena.py:63-64 | deregistering twice is the same as deregistering once |
| Arena.DeregisterSparesOthers | cs404x/arena.py:63-64 | a participant with a different id is in the queue, or in the game, after someone else leaves exactly when it was before |
| Arena.DeregisterPool | cs404x/arena.py:56-64 | the arena's participants after a departure are exactly those before, minus the one who left |
| Arena.Initial | cs404x/arena.py:40-50 | a new arena has an empty queue, an empty game, no auction and the signal clear |
| Arena.RegisterKeepsInv | cs404x/arena.py:66-88 | registering a participant with a fresh id keeps the arena invariant |
| Arena.DeregisterKeepsInv | cs404x/arena.py:56-64 | deregistering keeps the arena invariant |
| Arena.Register | cs404x/arena.py:66-88 | the participant joins the queue. The QUEUED reply carries its id, whether an auction runs, and the sizes of the game and of the queue after joining. The signal is then recomputed |
| Arena.RegisterThenDeregister | cs404x/arena.py:56-88 | a newcomer who leaves again restores the arena, except for the signal |
| Arena.KeyedById | cs404x/arena.py:160-163 | the waiting participants keyed by id: the keys are their ids, each id maps to the participant that has it, and the values are the whole queue |
| Arena.Wake | cs404x/arena.py:103 | the game loop passes its wait only when the signal is set, and passing it moves the loop to the start step and changes nothing else |
| Arena.AnnounceStart | cs404x/arena.py:112-115 | START goes to exactly the participants waiting at that moment, and nothing else changes but the loop position |
| Arena.SetupAuction | cs404x/arena.py:158-168 | the game becomes exactly the queue as it is at setup, keyed by id, and the queue empties. A fresh auction with the default target starts over exactly those ids |
| Arena.LateJoinMissesStart | cs404x/arena.py:112-163 | a participant registering between the START broadcast and the setup is put in the game, although START never reached it |
| Arena.PromptSetupStartsEveryone | cs404x/arena.py:112-163 | with no registration in between, the game is exactly the set of participants START reached |
| Arena.SetupKeepsPool | cs404x/arena.py:158-168 | setup neither loses nor adds a participant |
| Arena.BidRequestFor | cs404x/arena.py:196-208 | a request carries the current painting, the recipient's public state, and the public state of every in-game player |
| Arena.BeginRound | cs404x/arena.py:125-128 | every bid is reset, each in-game participant gets the bid request built from the reset auction, with the full summary and every in-game player's view, and the round's bidders start empty |
| Arena.OnBidReply | cs404x/arena.py:226-258 | a bid from the queue only draws the queue warning. A bid with no auction, or from an id the auction lacks, deregisters the bidder. Otherwise the bid is registered, and a rejection draws the budget warning. An acceptance adds the bidder, and the barrier is released only once every in-game participant has bid |
| Arena.ReleaseMeansEveryoneBid | cs404x/arena.py:252-258 | an accepted bid releases the barrier iff, with it, every in-game participant has had a bid accepted this round |
| Arena.FirstBidReleasesOnlyAlone | cs404x/arena.py:252-258 | right after a round begins, one bid releases the barrier only when its bidder is the only one left in the game |
| Arena.CountBidsAsWritten | cs404x/arena.py:252-258 | the source's counter rises by one per accepted bid, and is reset to 0, releasing the barrier, exactly when it reaches the in-game count |
| Arena.StaleCountReleasesEarly | cs404x/arena.py:252-258 | with three players, a count left at 2 by one round releases the barrier on the first bid of the next |
| Arena.DecideRound | cs404x/arena.py:139-156 | the auction is cancelled, without resolving, iff fewer than two participants remain. Otherwise the round is resolved once, its summary is the telemetry, and the loop closes once the auction is finished |
| Arena.FinishAuction | cs404x/arena.py:170-194 | each in-game participant's END says whether it is among the auction's winners and how many played. The auction is dropped, the game moves back to the queue, and the signal is recomputed |
| Arena.EndWonMeansTopScore | cs404x/arena.py:171-177 | END's `won` holds exactly when no player of the auction scores higher than the recipient |
| Arena.FinishKeepsPool | cs404x/arena.py:186-194 | closing neither loses nor adds a participant |
| Arena.SetupKeepsInv | cs404x/arena.py:158-168 | setup keeps the arena invariant |
| Arena.BeginRoundKeepsInv | cs404x/arena.py:125-128 | starting a round keeps the arena invariant, with every bid now in range |
| Arena.BidKeepsInv | cs404x/arena.py:226-258 | handling a bid reply keeps the arena invariant |
| Arena.DecideRoundKeepsInv | cs404x/arena.py:139-156 | the decision after the bid wait is well defined and keeps the arena invariant |
| Arena.FinishKeepsInv | cs404x/arena.py:170-194 | closing the auction keeps ids unique and the queue and the game disjoint |
| Arena.Step | cs404x/arena.py:99-123 | every enabled event keeps the arena invariant |
| Arena.Run | cs404x/arena.py:99-123 | every sequence of events keeps the arena invariant |
| Arena.RunFromInitial | cs404x/arena.py:186-194 | on every run from a fresh arena, the queue and the game never share a participant |
| Client.InitialClient | cs404x/client.py:186-190 | the client starts with no bot, no id, no auctions and no telemetry |
| Client.OnQueued | cs404x/client.py:69-77 | the id from the QUEUED payload is remembered and nothing else changes |
| Client.OnStart | cs404x/client.py:80-86 | the new bot replaces the old one and nothing else changes |
| Client.OnEnd | cs404x/client.py:89-122 | telemetry is cleared. With one participant the counters stay. Otherwise the total rises by one and the wins rise by one iff `won`, so wins never exceed the total |
| Client.OnTelemetry | cs404x/client.py:125-149 | exactly one record is appended, marked as won iff the client knows its id and that id won the round |
| Client.Handle | cs404x/client.py:196-210 | the handler raises exactly for WIN, BID_REPLY, and a BID_REQUEST before any START. INFO and WARNING leave the state unchanged. A BID_REQUEST with a bot is answered with the bot's bid and leaves the state unchanged. QUEUED, START, END and ROUND_TELEMETRY go to their own handlers, with no reply |
| Client.Run | cs404x/client.py:192-213 | the loop stops early only right after the total reaches the requested number. Without a crash, the state it stops in is the state after handling the handled messages in order; after a crash, the next message is the one whose handler raises. The replies sent are those the handled messages produce, in order. Wins never exceed the total, and a total below the request never overshoots it |
| Client.RunStopsAtFirstCompletion | cs404x/client.py:212-213 | every state the loop passed through before stopping had a total different from the requested number |

## Left out

- Concurrency is not modelled. That covers asyncio locks, events and conditions, the bid timeout, `sleep`, and fire-and-forget sends. Each critical section is one atomic step, and a bid timeout is the arena deciding the round before every bid arrived.
  - `register` sends QUEUED while holding the registration lock. If that send fails, `deregister` asks for the same lock. This possible deadlock is outside a sequential model.
- Transport is not modelled: websockets, broadcast, msgpack encoding and connection errors. Messages are the `Message` datatype.
  - A send that fails is not modelled. In the source it deregisters the recipient, which is the `Leave` event.
- Server bootstrap and argparse are not modelled.
  - `server.py` gives each connection a uuid4 id. The `Join` event assumes the id is fresh.
  - `server.py` deregisters a participant whose handler raises. That is how `OnBidReply` treats a bid arriving with no auction or from an unknown id.
- Client I/O is not modelled: the CSV written at END, uuid file names, loading the bot module, and the final win-rate log line (a float division).
- Randomness and time are inputs.
  - The painting order draws come in as `draws`.
  - `random.random()` tie-break keys come in as a map. Two players drawing equal keys is excluded, which is the `TieKeysFit` requirement.
  - `datetime.now()` is an opaque `Timestamp`.
- Floating-point budgets and bids are integers.
- The bots' bidding strategy is external code. Its bid arrives with each delivered message.
- Auctioneer.Summary: the source raises `IndexError` once the round index passes the painting order. The model requires a round with a painting left, which the arena always has because it stops at round 199.
- Auctioneer.ScoreOf: the source raises when the target is empty (`max` of nothing) or longer than four kinds (an index past the owned counts). The model requires `TargetFits`, and the arena always uses the default target.
- Auctioneer.RoundWinner: the source fails with an empty roster (index -1 of an empty list). The model requires a non-empty roster, and the arena resolves rounds only with at least two players.
- Arena.SetupAuction: requires distinct ids among the waiting participants. The source's dict comprehension would keep only the last participant with a given id.
- Arena.OnBidReply: uses the corrected `RegisterBid` and the set of this round's bidders instead of the source's counter. The as-written behaviour is kept in `Auctioneer.RegisterBidAsWritten` and `Arena.CountBidsAsWritten`; see Findings.
- Client.Run: the connection closing is the end of the delivered messages. The model does not state that an END arriving when the total already equals the request keeps the loop running, though the code does this.

## Findings

| source | as written | input that shows it | evidently intended | confidence | as-written member | corrected member |
|---|---|---|---|---|---|---|
| cs404x/auctioneer.py:135-141 | `register_bid` accepts any bid not above the budget, negative bids included | two players bid -10 and -20. Both bids are accepted, the -10 bidder wins and pays -10, and its budget rises from 1001 to 1011 | bids lie between 0 and the budget, so the winner's budget never grows. Budgets never go negative even as written (`Auctioneer.ResolveRoundKeepsSolventAsWritten`); only "never grows" is broken | high (not executed) | Auctioneer.RegisterBidAsWritten | Auctioneer.RegisterBid |
| cs404x/arena.py:252-258 | `_bids_received` counts accepted bids and is reset only when it reaches the in-game count. It is never reset when a round starts, and a second bid from the same participant counts again | three players: two bid and the third times out, leaving the count at 2. In the next round the first accepted bid releases the barrier | the barrier opens once every in-game participant has had a bid accepted in the current round | high (not executed) | Arena.CountBidsAsWritten | Arena.OnBidReply |

=== FILE: arena.dfy ===
/**
 * The arena of cs404x (`Arena` in cs404x/arena.py): a queue of waiting
 * participants, the participants of the running auction keyed by user id,
 * the running auction itself, and the "enough players" signal the game loop
 * waits on. Every `async with` region of the source is one atomic step here.
 *
 * `phase` is the position of the game loop: waiting for the signal, woken
 * and about to broadcast START, START sent and about to set up the auction,
 * between rounds, collecting the bids of a round, or closing the auction.
 * The START broadcast and the locked setup are separate steps, as they are
 * in the source, so connections can be registered between the two.
 *
 * Bids are counted with the set of players whose bid was accepted in the
 * current round, emptied when the round starts; the counter of the source,
 * which is never reset between rounds, is `CountBidsAsWritten`.
 */
module Arena {
  import opened Wrappers
  import opened Auctioneer
  import opened Messages

  const MinPlayers: nat := 2

  /** A connected participant; its websocket is not modelled. */
  datatype Participant = Participant(userName: string, userId: PlayerId)

  datatype Phase = Idle | Starting | Announced | BetweenRounds | CollectingBids | Closing

  datatype ArenaState = ArenaState(
    waiting: set<Participant>,
    inGame: map<PlayerId, Participant>,
    auction: Option<Auction>,
    signal: bool,
    bidders: set<PlayerId>,
    phase: Phase,
    started: set<Participant>)

  datatype Registered = Registered(state: ArenaState, reply: QueuedInfo)
  datatype RoundBegun = RoundBegun(state: ArenaState, requests: map<PlayerId, BidRequestInfo>)
  datatype BidHandled = BidHandled(state: ArenaState, warning: Option<string>, released: bool)
  datatype RoundDecided = RoundDecided(state: ArenaState, cancelled: bool, telemetry: Option<RoundSummary>)
  datatype Closed = Closed(state: ArenaState, ends: map<PlayerId, EndInfo>)

  /** A freshly constructed arena. */
  function Initial(): (s: ArenaState)
    ensures s.waiting == {} && s.inGame == map[] && s.auction.None? && !s.signal
  {
    ArenaState({}, map[], None, false, {}, Idle, {})
  }

  /** The ids of a set of participants. */
  function Ids(ps: set<Participant>): (ids: set<PlayerId>)
    ensures forall p :: p in ps ==> p.userId in ids
    ensures forall id :: id in ids ==> exists p :: p in ps && p.userId == id
  {
    set p | p in ps :: p.userId
  }

  /** No two participants of `ps` share an id. */
  predicate UniqueIds(ps: set<Participant>)
  {
    forall p, q :: p in ps && q in ps && p.userId == q.userId ==> p == q
  }

  /** Everyone the arena knows: the waiting participants and those in the game. */
  function Pool(s: ArenaState): (ps: set<Participant>)
    ensures forall p :: p in ps <==> p in s.waiting || p in s.inGame.Values
  {
    s.waiting + s.inGame.Values
  }

  /** The signal agrees with `_start_if_possible`'s test. */
  predicate SignalAccurate(s: ArenaState)
  {
    s.signal <==> s.auction.None? && |s.waiting| >= MinPlayers
  }

  // ---------------------------------------------------------------------
  // Registration
  // ---------------------------------------------------------------------

  /** `_start_if_possible`: the signal is set when no auction runs and at
      least two participants wait, and cleared otherwise. */
  function StartIfPossible(s: ArenaState): (r: ArenaState)
    ensures SignalAccurate(r)
    ensures r.(signal := s.signal) == s
  {
    s.(signal := s.auction.None? && |s.waiting| >= MinPlayers)
  }

  /** `deregister`: the participant leaves the queue and the game; the
      auction's roster and the signal are left alone. */
  function Deregister(s: ArenaState, p: Participant): (r: ArenaState)
    ensures p !in r.waiting && p.userId !in r.inGame
    ensures forall q :: q in s.waiting && q != p ==> q in r.waiting
    ensures r.waiting <= s.waiting
    ensures r.inGame.Keys == s.inGame.Keys - {p.userId}
    ensures forall id :: id in r.inGame ==> r.inGame[id] == s.inGame[id]
    ensures r.auction == s.auction && r.signal == s.signal
    ensures r.bidders == s.bidders && r.phase == s.phase
  {
    s.(waiting := s.waiting - {p}, inGame := s.inGame - {p.userId})
  }

  /** `register`: the participant joins the queue and is told the pool sizes
      after joining; the signal is then recomputed. */
  function Register(s: ArenaState, p: Participant): (r: Registered)
    ensures r.state.waiting == s.waiting + {p}
    ensures r.state.inGame == s.inGame && r.state.auction == s.auction
    ensures r.state.bidders == s.bidders && r.state.phase == s.phase
    ensures SignalAccurate(r.state)
    ensures r.reply.participantId == p.userId
    ensures r.reply.isInGame <==> s.auction.Some?
    ensures r.reply.inGameCount == |s.inGame|
    ensures r.reply.waitingCount == |r.state.waiting|
    ensures p !in s.waiting ==> r.reply.waitingCount == |s.waiting| + 1
  {
    var joined := s.(waiting := s.waiting + {p});
    var reply := QueuedInfo(s.auction.Some?, p.userId, |joined.inGame|, |joined.waiting|);
    Registered(StartIfPossible(joined), reply)
  }

  /** Deregistering twice is deregistering once. */
  lemma DeregisterIdempotent(s: ArenaState, p: Participant)
    ensures Deregister(Deregister(s, p), p) == Deregister(s, p)
  {
  }

  /** Deregistering affects nobody else: every other waiting participant
      and every other in-game entry stays. */
  lemma DeregisterSparesOthers(s: ArenaState, p: Participant, q: Participant)
    requires q != p && q.userId != p.userId
    ensures q in Deregister(s, p).waiting <==> q in s.waiting
    ensures q.userId in Deregister(s, p).inGame <==> q.userId in s.inGame
  {
  }

  /** A newcomer who leaves again restores the queue and the game, and the
      arena is as before up to the signal. */
  lemma RegisterThenDeregister(s: ArenaState, p: Participant)
    requires p !in s.waiting && p.userId !in s.inGame
    ensures Deregister(Register(s, p).state, p).(signal := s.signal) == s
  {
    var r := Deregister(Register(s, p).state, p);
    assert r.waiting == s.waiting;
    assert r.inGame == s.inGame;
  }

  /** Leaving the arena removes exactly the leaving participant from the
      pool, provided any in-game entry under its id is the participant
      itself. */
  lemma DeregisterPool(s: ArenaState, p: Participant)
    requires p.userId in s.inGame ==> s.inGame[p.userId] == p
    requires forall id :: id in s.inGame ==> s.inGame[id].userId == id
    ensures Pool(Deregister(s, p)) == Pool(s) - {p}
  {
    var r := Deregister(s, p);
    forall q | q in Pool(s) - {p}
      ensures q in Pool(r)
    {
      if q !in s.waiting {
        var id :| id in s.inGame && s.inGame[id] == q;
        assert id in r.inGame;
      }
    }
  }

  // ---------------------------------------------------------------------
  // The game loop
  // ---------------------------------------------------------------------

  /** The random draws of a painting order for `RoundLimit` rounds. */
  predicate DrawsFit(draws: seq<nat>)
  {
    |draws| == RoundLimit && forall i :: 0 <= i < |draws| ==> draws[i] < |Artists|
  }

  /** The waiting participants keyed by their ids. */
  function KeyedById(ps: set<Participant>): (m: map<PlayerId, Participant>)
    requires UniqueIds(ps)
    ensures m.Keys == Ids(ps)
    ensures forall id :: id in m ==> m[id] in ps && m[id].userId == id
    ensures m.Values == ps
  {
    var m := map id | id in Ids(ps) :: var p :| p in ps && p.userId == id; p;
    assert forall p :: p in ps ==> p.userId in m && m[p.userId] == p;
    m
  }

  /** The game loop leaves its wait on the signal. */
  function Wake(s: ArenaState): (r: ArenaState)
    requires s.signal
    ensures r.(phase := s.phase) == s && r.phase == Starting
  {
    s.(phase := Starting)
  }

  /** The START broadcast to everyone waiting at that moment. It happens
      outside the registration lock, before `_setup_auction`. */
  function AnnounceStart(s: ArenaState): (r: ArenaState)
    ensures r.started == s.waiting && r.phase == Announced
    ensures r.(started := s.started, phase := s.phase) == s
  {
    s.(started := s.waiting, phase := Announced)
  }

  /** `_setup_auction`: the game takes over the whole queue as it is now,
      keyed by id, the queue empties, and an auction with the default target
      and a drawn painting order starts over exactly those ids. The signal
      and the recipients of the last START are not touched. */
  function SetupAuction(s: ArenaState, draws: seq<nat>, start: Timestamp): (r: ArenaState)
    requires UniqueIds(s.waiting)
    requires DrawsFit(draws)
    ensures r.inGame.Keys == Ids(s.waiting)
    ensures forall id :: id in r.inGame ==>
      r.inGame[id] in s.waiting && r.inGame[id].userId == id
    ensures r.inGame.Values == s.waiting
    ensures r.waiting == {}
    ensures r.auction == Some(NewAuction(Ids(s.waiting), None, draws, DefaultTarget, start))
    ensures r.auction.value.players.Keys == r.inGame.Keys
    ensures r.signal == s.signal && r.phase == BetweenRounds && r.started == s.started
  {
    var inGame := KeyedById(s.waiting);
    var auction := NewAuction(inGame.Keys, None, draws, DefaultTarget, start);
    s.(waiting := {}, inGame := inGame, auction := Some(auction), bidders := {}, phase := BetweenRounds)
  }

  /** The request each in-game participant receives for a round. */
  function BidRequestFor(a: Auction, ids: set<PlayerId>, id: PlayerId): (req: BidRequestInfo)
    requires ids <= a.players.Keys && id in ids
    requires a.currentRound < |a.paintingOrder|
    ensures req.summary.currentPainting == a.paintingOrder[a.currentRound]
    ensures req.myBotDetails == View(a.players[id])
    ensures req.bots.Keys == ids
    ensures forall q :: q in ids ==> req.bots[q] == View(a.players[q])
  {
    BidRequestInfo(Summary(a), View(a.players[id]), map q | q in ids :: View(a.players[q]))
  }

  /** The first half of `_run_round`: every bid reset to 0, and a bid request
      with the auction summary and every in-game player's public state sent
      to each in-game participant. The round's bidders start empty. */
  function BeginRound(s: ArenaState): (r: RoundBegun)
    requires s.auction.Some?
    requires s.inGame.Keys <= s.auction.value.players.Keys
    requires s.auction.value.currentRound < |s.auction.value.paintingOrder|
    ensures r.state.auction == Some(StartRound(s.auction.value))
    ensures r.state.bidders == {} && r.state.phase == CollectingBids
    ensures r.state.waiting == s.waiting && r.state.inGame == s.inGame && r.state.signal == s.signal
    ensures r.requests.Keys == s.inGame.Keys
    ensures forall id :: id in r.requests ==>
      && r.requests[id].myBotDetails.budget == s.auction.value.players[id].budget
      && r.requests[id].summary.currentRound == s.auction.value.currentRound
      && r.requests[id].bots.Keys == s.inGame.Keys
    ensures forall id :: id in r.requests ==>
      r.requests[id] == BidRequestFor(StartRound(s.auction.value), s.inGame.Keys, id)
  {
    var a := StartRound(s.auction.value);
    var requests := map id | id in s.inGame :: BidRequestFor(a, s.inGame.Keys, id);
    RoundBegun(s.(auction := Some(a), bidders := {}, phase := CollectingBids), requests)
  }

  /** `_on_bid_reply` and `_count_bids`. A bid from the queue only draws a
      warning. A bid arriving with no auction, or from an id the auction
      does not know, raises in the source; the connection handler then
      deregisters the participant. Otherwise the bid goes to `register_bid`:
      a rejected bid draws a warning, an accepted one adds its bidder to the
      round's bidders, and the barrier is released once every in-game
      participant is among them. */
  function OnBidReply(s: ArenaState, p: Participant, bid: int): (r: BidHandled)
    ensures p in s.waiting ==> r == BidHandled(s, Some(QueueWarning), false)
    ensures p !in s.waiting && (s.auction.None? || p.userId !in s.auction.value.players) ==>
      r == BidHandled(Deregister(s, p), None, false)
    ensures p !in s.waiting && s.auction.Some? && p.userId in s.auction.value.players ==>
      var b := RegisterBid(s.auction.value, p.userId, bid);
      && r.state.auction == Some(b.auction)
      && r.state.waiting == s.waiting && r.state.inGame == s.inGame
      && r.state.phase == s.phase && r.state.signal == s.signal
      && (r.warning == None <==> b.accepted)
      && r.state.bidders == (if b.accepted then s.bidders + {p.userId} else s.bidders)
    ensures r.released ==> s.inGame.Keys <= r.state.bidders
    ensures r.released ==> r.warning.None? && r.state.bidders == s.bidders + {p.userId}
  {
    if p in s.waiting then
      BidHandled(s, Some(QueueWarning), false)
    else if s.auction.None? || p.userId !in s.auction.value.players then
      BidHandled(Deregister(s, p), None, false)
    else
      var b := RegisterBid(s.auction.value, p.userId, bid);
      if !b.accepted then
        BidHandled(s.(auction := Some(b.auction)), Some(BudgetWarning), false)
      else
        var bidders := s.bidders + {p.userId};
        BidHandled(s.(auction := Some(b.auction), bidders := bidders), None, s.inGame.Keys <= bidders)
  }

  /** An accepted bid releases the barrier exactly when, with it, every
      in-game participant has had a bid accepted this round. */
  lemma ReleaseMeansEveryoneBid(s: ArenaState, p: Participant, bid: int)
    requires p !in s.waiting && s.auction.Some? && p.userId in s.auction.value.players
    requires RegisterBid(s.auction.value, p.userId, bid).accepted
    ensures OnBidReply(s, p, bid).released <==> s.inGame.Keys <= s.bidders + {p.userId}
  {
  }

  /** Right after a round begins, a single bid releases the barrier only
      when its bidder is the only participant left in the game. */
  lemma FirstBidReleasesOnlyAlone(s: ArenaState, p: Participant, bid: int)
    requires s.auction.Some?
    requires s.inGame.Keys <= s.auction.value.players.Keys
    requires s.auction.value.currentRound < |s.auction.value.paintingOrder|
    ensures OnBidReply(BeginRound(s).state, p, bid).released ==> s.inGame.Keys <= {p.userId}
  {
  }

  /** The source's `_count_bids` counter after one accepted bid, and
      whether it released the barrier. */
  datatype Counter = Counter(count: nat, released: bool)

  /** `_count_bids` as written: the count rises by one, and it is reset to 0,
      releasing the barrier, only when it equals the number of in-game
      participants. Nothing resets it when a round starts. */
  function CountBidsAsWritten(count: nat, inGameCount: nat): (c: Counter)
    ensures c.released <==> count + 1 == inGameCount
    ensures c.released ==> c.count == 0
    ensures !c.released ==> c.count == count + 1
  {
    if count + 1 == inGameCount then Counter(0, true) else Counter(count + 1, false)
  }

  /** Three players are in the game; two bids are accepted and the third
      player times out, leaving the count at 2. In the next round the very
      first accepted bid releases the barrier, though two players have not
      bid. */
  lemma StaleCountReleasesEarly()
    ensures var afterTwo := CountBidsAsWritten(CountBidsAsWritten(0, 3).count, 3);
      && !CountBidsAsWritten(0, 3).released
      && !afterTwo.released && afterTwo.count == 2
      && CountBidsAsWritten(afterTwo.count, 3).released
  {
  }

  /** The decision after the bid wait in `_run_round`: with fewer than two
      participants left the auction is cancelled without resolving the
      round; otherwise `finish_round` runs once and its summary is sent as
      telemetry. The loop closes the auction when it is cancelled or
      finished. */
  function DecideRound(s: ArenaState, keys: map<PlayerId, real>): (r: RoundDecided)
    requires s.auction.Some?
    requires |s.inGame| >= MinPlayers ==> CanFinishRound(s.auction.value, keys)
    ensures r.cancelled <==> |s.inGame| < MinPlayers
    ensures r.cancelled ==> r.state == s.(phase := Closing) && r.telemetry.None?
    ensures !r.cancelled ==>
      var f := FinishRound(s.auction.value, keys);
      && r.state.auction == Some(f.auction)
      && r.telemetry == Some(f.summary)
      && r.state.auction.value.currentRound == s.auction.value.currentRound + 1
      && r.state.phase == (if Auctioneer.Finished(f.auction) then Closing else BetweenRounds)
      && r.state.(auction := s.auction, phase := s.phase) == s
  {
    if |s.inGame| < MinPlayers then
      RoundDecided(s.(phase := Closing), true, None)
    else
      var f := FinishRound(s.auction.value, keys);
      var phase := if Auctioneer.Finished(f.auction) then Closing else BetweenRounds;
      RoundDecided(s.(auction := Some(f.auction), phase := phase), false, Some(f.summary))
  }

  /** `_finish_auction`: every in-game participant is told whether it is
      among the auction's winners and how many played; then the auction is
      dropped, the game's participants rejoin the queue, the game empties
      and the signal is recomputed. */
  function FinishAuction(s: ArenaState): (r: Closed)
    requires s.auction.Some?
    ensures r.ends.Keys == s.inGame.Keys
    ensures forall id :: id in r.ends ==>
      r.ends[id] == EndInfo(id in ComputeAuctionWinners(s.auction.value), |s.inGame|)
    ensures r.state.waiting == s.waiting + s.inGame.Values
    ensures r.state.inGame == map[] && r.state.auction.None? && r.state.phase == Idle
    ensures SignalAccurate(r.state)
  {
    var winners := ComputeAuctionWinners(s.auction.value);
    var ends := map id | id in s.inGame :: EndInfo(id in winners, |s.inGame|);
    var closed := s.(auction := None, waiting := s.waiting + s.inGame.Values,
                     inGame := map[], bidders := {}, phase := Idle);
    Closed(StartIfPossible(closed), ends)
  }

  /** END's `won` is true exactly for the participants whose score no player
      of the auction exceeds. */
  lemma EndWonMeansTopScore(s: ArenaState, id: PlayerId)
    requires s.auction.Some? && id in s.inGame
    requires s.inGame.Keys <= s.auction.value.players.Keys
    ensures var a := s.auction.value;
      FinishAuction(s).ends[id].won <==>
        forall q :: q in a.players ==> a.players[q].score <= a.players[id].score
  {
  }

  // ---------------------------------------------------------------------
  // Invariant
  // ---------------------------------------------------------------------

  /** What the running auction satisfies at every step of the game loop. */
  predicate AuctionInv(a: Auction, ids: set<PlayerId>, phase: Phase)
  {
    && ids <= a.players.Keys
    && Valid(a) && Solvent(a) && WonConsistent(a) && ScoresEarned(a)
    && a.target == DefaultTarget
    && |a.paintingOrder| == RoundLimit
    && a.currentRound <= RoundLimit - 1
    && (phase == BetweenRounds ==> !Auctioneer.Finished(a))
    && (phase == CollectingBids ==> !Auctioneer.Finished(a) && BidsInRange(a))
  }

  /** The arena's invariant: ids are unique, the queue and the game are
      disjoint, the game is keyed by id and empty without an auction, and
      an auction runs exactly while the loop is past setup. */
  predicate Inv(s: ArenaState)
  {
    && UniqueIds(s.waiting)
    && (forall id :: id in s.inGame ==> s.inGame[id].userId == id)
    && (forall p :: p in s.waiting ==> p.userId !in s.inGame)
    && (s.auction.None? <==> s.phase == Idle || s.phase == Starting || s.phase == Announced)
    && (s.auction.None? ==> s.inGame == map[])
    && (s.auction.Some? ==> AuctionInv(s.auction.value, s.inGame.Keys, s.phase))
  }

  /** The waiting and in-game pools never share a participant. */
  lemma InvDisjoint(s: ArenaState)
    requires Inv(s)
    ensures s.waiting !! s.inGame.Values
  {
  }

  lemma InitialInv()
    ensures Inv(Initial())
  {
  }

  /** A participant whose id the arena has not seen. */
  predicate FreshId(s: ArenaState, p: Participant)
  {
    p.userId !in Ids(s.waiting) && p.userId !in s.inGame
  }

  lemma RegisterKeepsInv(s: ArenaState, p: Participant)
    requires Inv(s) && FreshId(s, p)
    ensures Inv(Register(s, p).state)
  {
  }

  lemma DeregisterKeepsInv(s: ArenaState, p: Participant)
    requires Inv(s)
    ensures Inv(Deregister(s, p))
  {
  }

  /** Setup moves the whole queue into the game: nobody is lost or added. */
  lemma SetupKeepsPool(s: ArenaState, draws: seq<nat>, start: Timestamp)
    requires Inv(s) && s.auction.None? && DrawsFit(draws)
    ensures Pool(SetupAuction(s, draws, start)) == Pool(s)
  {
  }

  /** Closing the auction moves the whole game back into the queue. */
  lemma FinishKeepsPool(s: ArenaState)
    requires s.auction.Some?
    ensures Pool(FinishAuction(s).state) == Pool(s)
  {
  }

  lemma SetupKeepsInv(s: ArenaState, draws: seq<nat>, start: Timestamp)
    requires Inv(s) && s.phase == Announced && DrawsFit(draws)
    ensures Inv(SetupAuction(s, draws, start))
  {
    var a := SetupAuction(s, draws, start).auction.value;
    assert ScoresEarned(a);
  }

  lemma BeginRoundKeepsInv(s: ArenaState)
    requires Inv(s) && s.phase == BetweenRounds
    ensures s.auction.Some? && s.auction.value.currentRound < |s.auction.value.paintingOrder|
    ensures Inv(BeginRound(s).state)
  {
    var a := s.auction.value;
    var a' := StartRound(a);
    assert ScoresEarned(a') by {
      assert forall id :: id in a'.players ==>
        a'.players[id].score == a.players[id].score && a'.players[id].paintingsOwned == a.players[id].paintingsOwned;
    }
    assert WonConsistent(a') by {
      assert forall id :: id in a'.players ==> a'.players[id].score == a.players[id].score;
    }
  }

  /** A bid changes only the bidder's current bid, so scores and the win
      flag still agree. */
  lemma RegisterBidKeepsScores(a: Auction, id: PlayerId, bid: int)
    requires id in a.players
    requires WonConsistent(a) && ScoresEarned(a)
    ensures WonConsistent(RegisterBid(a, id, bid).auction)
    ensures ScoresEarned(RegisterBid(a, id, bid).auction)
  {
    var a' := RegisterBid(a, id, bid).auction;
    assert forall q :: q in a'.players ==>
      a'.players[q].score == a.players[q].score && a'.players[q].paintingsOwned == a.players[q].paintingsOwned;
  }

  lemma BidKeepsInv(s: ArenaState, p: Participant, bid: int)
    requires Inv(s)
    ensures Inv(OnBidReply(s, p, bid).state)
  {
    if p !in s.waiting && s.auction.Some? && p.userId in s.auction.value.players {
      RegisterBidKeepsScores(s.auction.value, p.userId, bid);
    }
  }

  /** The keys a round can be resolved with: with two players in the game,
      the auction's own facts make `finish_round` well defined. */
  lemma DecidableRound(s: ArenaState, keys: map<PlayerId, real>)
    requires Inv(s) && s.phase == CollectingBids
    requires |s.inGame| >= MinPlayers ==> TieKeysFit(s.auction.value, keys)
    ensures s.auction.Some?
    ensures |s.inGame| >= MinPlayers ==> CanFinishRound(s.auction.value, keys)
  {
    if |s.inGame| >= MinPlayers {
      var id :| id in s.inGame;
      assert id in s.auction.value.players;
    }
  }

  lemma DecideRoundKeepsInv(s: ArenaState, keys: map<PlayerId, real>)
    requires Inv(s) && s.phase == CollectingBids
    requires |s.inGame| >= MinPlayers ==> TieKeysFit(s.auction.value, keys)
    ensures s.auction.Some?
    ensures |s.inGame| >= MinPlayers ==> CanFinishRound(s.auction.value, keys)
    ensures Inv(DecideRound(s, keys).state)
  {
    DecidableRound(s, keys);
    if |s.inGame| >= MinPlayers {
      var a := s.auction.value;
      var w := FinishRound(a, keys).summary.roundWinner;
      ResolveRoundKeepsInvariants(a, w);
    }
  }

  lemma FinishKeepsInv(s: ArenaState)
    requires Inv(s) && s.phase == Closing
    ensures s.auction.Some?
    ensures Inv(FinishAuction(s).state)
  {
    var r := FinishAuction(s).state;
    forall p, q | p in r.waiting && q in r.waiting && p.userId == q.userId
      ensures p == q
    {
      if p in s.inGame.Values {
        var i :| i in s.inGame && s.inGame[i] == p;
      }
      if q in s.inGame.Values {
        var j :| j in s.inGame && s.inGame[j] == q;
      }
    }
  }

  // ---------------------------------------------------------------------
  // Traces
  // ---------------------------------------------------------------------

  /** What can happen to the arena: a participant connects or disconnects,
      a bid reply arrives, or the game loop takes its next step. */
  datatype Event =
    | Join(p: Participant)
    | Leave(p: Participant)
    | BidArrives(p: Participant, bid: int)
    | WakeUp
    | Announce
    | Setup(draws: seq<nat>, start: Timestamp)
    | Begin
    | Decide(keys: map<PlayerId, real>)
    | Close

  /** When an event can happen: new connections get fresh ids, the game
      loop moves in its order, and random draws and tie-break keys are
      well formed. */
  predicate Enabled(s: ArenaState, e: Event)
  {
    match e
    case Join(p) => FreshId(s, p)
    case Leave(_) => true
    case BidArrives(_, _) => true
    case WakeUp => s.phase == Idle && s.signal
    case Announce => s.phase == Starting
    case Setup(draws, _) => s.phase == Announced && DrawsFit(draws)
    case Begin => s.phase == BetweenRounds
    case Decide(keys) =>
      s.phase == CollectingBids && s.auction.Some? &&
      (|s.inGame| >= MinPlayers ==> TieKeysFit(s.auction.value, keys))
    case Close => s.phase == Closing
  }

  /** One enabled event, applied; the invariant is kept. */
  function Step(s: ArenaState, e: Event): (r: ArenaState)
    requires Inv(s) && Enabled(s, e)
    ensures Inv(r)
  {
    match e
    case Join(p) =>
      RegisterKeepsInv(s, p);
      Register(s, p).state
    case Leave(p) =>
      DeregisterKeepsInv(s, p);
      Deregister(s, p)
    case BidArrives(p, bid) =>
      BidKeepsInv(s, p, bid);
      OnBidReply(s, p, bid).state
    case WakeUp =>
      Wake(s)
    case Announce =>
      AnnounceStart(s)
    case Setup(draws, start) =>
      SetupKeepsInv(s, draws, start);
      SetupAuction(s, draws, start)
    case Begin =>
      BeginRoundKeepsInv(s);
      BeginRound(s).state
    case Decide(keys) =>
      DecideRoundKeepsInv(s, keys);
      DecideRound(s, keys).state
    case Close =>
      FinishKeepsInv(s);
      FinishAuction(s).state
  }

  /** A run of the arena: every enabled event is applied in turn; an event
      that cannot happen in the current state is ignored. */
  function Run(s: ArenaState, events: seq<Event>): (r: ArenaState)
    requires Inv(s)
    ensures Inv(r)
    decreases |events|
  {
    if |events| == 0 then s
    else
      var next := if Enabled(s, events[0]) then Step(s, events[0]) else s;
      Run(next, events[1..])
  }

  /** A connection registered after START went out and before the setup
      takes the lock joins the game without having received START; its
      client then has no bot when the first bid request arrives. */
  lemma LateJoinMissesStart(s: ArenaState, p: Participant, draws: seq<nat>, start: Timestamp)
    requires Inv(s) && s.phase == Starting && FreshId(s, p) && DrawsFit(draws)
    ensures var announced := Step(s, Announce);
      Enabled(announced, Join(p)) &&
      var joined := Step(announced, Join(p));
      Enabled(joined, Setup(draws, start)) &&
      var ready := Step(joined, Setup(draws, start));
      p.userId in ready.inGame && ready.inGame[p.userId] == p && p !in ready.started
  {
  }

  /** Without a registration between the broadcast and the setup, exactly
      the participants that received START are in the game. */
  lemma PromptSetupStartsEveryone(s: ArenaState, draws: seq<nat>, start: Timestamp)
    requires Inv(s) && s.phase == Starting && DrawsFit(draws)
    ensures var announced := Step(s, Announce);
      Enabled(announced, Setup(draws, start)) &&
      var ready := Step(announced, Setup(draws, start));
      ready.inGame.Values == ready.started
  {
  }

  /** On every run from a fresh arena the queue and the game stay disjoint,
      ids stay unique and the running auction keeps its invariants. */
  lemma RunFromInitial(events: seq<Event>)
    ensures Inv(Run(Initial(), events))
    ensures Run(Initial(), events).waiting !! Run(Initial(), events).inGame.Values
  {
    InitialInv();
    InvDisjoint(Run(Initial(), events));
  }
}

=== FILE: auctioneer.dfy ===
/**
 * The auction engine of cs404x (`Auctioneer` in cs404x/auctioneer.py): a
 * sealed-bid painting auction over a fixed roster of player ids. Each round
 * the highest bidder, ties broken by a random key, buys the round's painting
 * for its own bid; a player whose sorted painting counts dominate the sorted
 * target collection scores 1 and ends the auction.
 *
 * Budgets and bids are Python floats there and integers here. The random
 * painting order and the random tie-break keys are explicit inputs, and the
 * auction's start time is an opaque timestamp supplied by the caller.
 */
module Auctioneer {
  import opened Wrappers
  import Scoring

  type PlayerId = string

  /** `datetime.now()` at construction; never inspected, only echoed in summaries. */
  type Timestamp = int

  datatype Artist = DaVinci | Rembrandt | VanGogh | Picasso

  /** The painting kinds, in the key order of `_artists_and_values`. */
  const Artists: seq<Artist> := [DaVinci, Rembrandt, VanGogh, Picasso]

  const RoundLimit: nat := 200
  const StartingBudget: int := 1001
  /** Rank of the sorted bid that wins: 1 is a first-price auction. */
  const WinnerPays: nat := 1
  /** The default target collection: 3, 3, 1 and 1 paintings of four distinct kinds. */
  const DefaultTarget: seq<int> := [3, 3, 1, 1]

  /** The value table sent to bidders; it plays no part in resolution. */
  function ArtistValue(a: Artist): nat
  {
    match a
    case DaVinci => 7
    case Rembrandt => 3
    case VanGogh => 12
    case Picasso => 2
  }

  /** Per-player state of one auction. `currentBid` is `None` until the first
      round starts, as the source's `current_bid = None`. */
  datatype ParticipantState = ParticipantState(
    paintingsOwned: map<Artist, nat>,
    budget: int,
    score: nat,
    currentBid: Option<int>)

  /** The public part of a player's state (`to_dict`): the bid stays sealed. */
  datatype ParticipantView = ParticipantView(paintings: map<Artist, nat>, budget: int, score: nat)

  /** One resolved round, as broadcast to the players. */
  datatype RoundSummary = RoundSummary(
    auctionStart: Timestamp,
    currentRound: nat,
    roundWinner: PlayerId,
    painting: Artist,
    amountPaid: int)

  datatype Auction = Auction(
    players: map<PlayerId, ParticipantState>,
    paintingOrder: seq<Artist>,
    target: seq<int>,
    currentRound: nat,
    playerWon: bool,
    winnerIds: seq<PlayerId>,
    amountsPaid: seq<int>,
    auctionStart: Timestamp)

  /** The auction summary placed in every bid request (`summary_state`). */
  datatype SummaryState = SummaryState(
    currentRound: nat,
    winnerPays: nat,
    artistsAndValues: map<Artist, nat>,
    roundLimit: nat,
    startingBudget: int,
    paintingOrder: seq<Artist>,
    target: seq<int>,
    currentPainting: Artist,
    winnerIds: seq<PlayerId>,
    amountsPaid: seq<int>)

  datatype BidResult = BidResult(auction: Auction, accepted: bool)

  datatype RoundResult = RoundResult(auction: Auction, summary: RoundSummary)

  // ---------------------------------------------------------------------
  // Participant state
  // ---------------------------------------------------------------------

  /** Every painting kind has an entry (the source builds one per artist). */
  predicate HasEveryKind(owned: map<Artist, nat>)
  {
    forall a: Artist :: a in owned
  }

  /** A map with the four artists as keys has every painting kind. */
  lemma FourKindsAreAll(owned: map<Artist, nat>)
    requires DaVinci in owned && Rembrandt in owned && VanGogh in owned && Picasso in owned
    ensures HasEveryKind(owned)
  {
    forall a: Artist
      ensures a in owned
    {
      match a
      case DaVinci =>
      case Rembrandt =>
      case VanGogh =>
      case Picasso =>
    }
  }

  /** Owned counts listed in artist order, the values the score test sorts. */
  function Counts(owned: map<Artist, nat>): (c: seq<int>)
    requires HasEveryKind(owned)
    ensures |c| == |Artists|
    ensures forall i :: 0 <= i < |Artists| ==> c[i] == owned[Artists[i]]
  {
    [owned[DaVinci], owned[Rembrandt], owned[VanGogh], owned[Picasso]]
  }

  /** Position of an artist in `Artists`. */
  function ArtistIndex(a: Artist): (i: nat)
    ensures i < |Artists| && Artists[i] == a
  {
    match a
    case DaVinci => 0
    case Rembrandt => 1
    case VanGogh => 2
    case Picasso => 3
  }

  /** A collection given by its count for each painting kind. */
  function Collection(daVinci: nat, rembrandt: nat, vanGogh: nat, picasso: nat): (owned: map<Artist, nat>)
    ensures HasEveryKind(owned)
    ensures owned.Keys == {DaVinci, Rembrandt, VanGogh, Picasso}
    ensures Counts(owned) == [daVinci, rembrandt, vanGogh, picasso]
  {
    var owned := map[DaVinci := daVinci, Rembrandt := rembrandt, VanGogh := vanGogh, Picasso := picasso];
    FourKindsAreAll(owned);
    owned
  }

  /** A fresh player: every painting kind present with count 0, score 0, the
      given budget and no bid yet. */
  function NewParticipantState(budget: int): (ps: ParticipantState)
    ensures HasEveryKind(ps.paintingsOwned)
    ensures forall a: Artist :: ps.paintingsOwned[a] == 0
    ensures ps.paintingsOwned.Keys == {DaVinci, Rembrandt, VanGogh, Picasso}
    ensures ps.budget == budget && ps.score == 0 && ps.currentBid == None
  {
    ParticipantState(Collection(0, 0, 0, 0), budget, 0, None)
  }

  /** `to_dict`: the part of a player's state shown in bid requests. */
  function View(ps: ParticipantState): (v: ParticipantView)
    ensures v.paintings == ps.paintingsOwned && v.budget == ps.budget && v.score == ps.score
  {
    ParticipantView(ps.paintingsOwned, ps.budget, ps.score)
  }

  /** What other players see of a player is everything but its bid: two
      states look alike exactly when they differ at most in the bid. */
  lemma ViewHidesOnlyBid(p: ParticipantState, q: ParticipantState)
    ensures View(p) == View(q) <==> p.(currentBid := q.currentBid) == q
  {
  }

  /** The submitted bid; only read once every player has one. */
  function Bid(ps: ParticipantState): int
  {
    ps.currentBid.GetOr(0)
  }

  /** 1 for a completed collection, 0 otherwise: complete means the owned
      counts, sorted, reach the sorted target counts position by position. */
  function ScoreOf(owned: map<Artist, nat>, target: seq<int>): (s: nat)
    requires HasEveryKind(owned)
    requires Scoring.TargetFits(target, |Artists|)
    ensures s <= 1
  {
    if Scoring.Dominates(Counts(owned), target) then 1 else 0
  }

  /** The score agrees with `_update_scores`'s own test: it is 1 exactly
      when the largest shortfall of the sorted owned counts against the
      sorted target counts is below one. */
  lemma ScoreMeansComplete(owned: map<Artist, nat>, target: seq<int>)
    requires HasEveryKind(owned)
    requires Scoring.TargetFits(target, |Artists|)
    ensures ScoreOf(owned, target) == 1 <==> Scoring.Complete(Counts(owned), target)
  {
    Scoring.CompleteIffDominates(Counts(owned), target);
  }

  /** The default target is already sorted. */
  lemma DefaultTargetSorted()
    ensures Scoring.SortDesc(DefaultTarget) == [3, 3, 1, 1]
  {
    assert Scoring.SortDesc([1]) == [1];
    assert Scoring.SortDesc([1, 1]) == [1, 1];
    assert Scoring.SortDesc([3, 1, 1]) == [3, 1, 1];
  }

  /** 3, 1, 3, 1 paintings complete the default target: the kinds may differ
      from the target's as long as the sorted counts cover it. */
  lemma DefaultTargetMetByOtherKinds()
    ensures ScoreOf(Collection(3, 1, 3, 1), DefaultTarget) == 1
  {
    DefaultTargetSorted();
    assert Scoring.SortDesc([1]) == [1];
    assert Scoring.SortDesc([3, 1]) == [3, 1];
    assert Scoring.SortDesc([1, 3, 1]) == [3, 1, 1];
    ScoreMeansComplete(Collection(3, 1, 3, 1), DefaultTarget);
  }

  /** 4, 4, 0, 0 paintings do not complete the default target: more
      paintings, but only two kinds. */
  lemma DefaultTargetNeedsFourKinds()
    ensures ScoreOf(Collection(4, 4, 0, 0), DefaultTarget) == 0
  {
    DefaultTargetSorted();
    assert Scoring.SortDesc([0]) == [0];
    assert Scoring.SortDesc([0, 0]) == [0, 0];
    assert Scoring.SortDesc([4, 0, 0]) == [4, 0, 0];
    ScoreMeansComplete(Collection(4, 4, 0, 0), DefaultTarget);
  }

  /** 3, 3, 1, 0 paintings fall one painting short of the default target. */
  lemma DefaultTargetOneShort()
    ensures ScoreOf(Collection(3, 3, 1, 0), DefaultTarget) == 0
  {
    DefaultTargetSorted();
    assert Scoring.SortDesc([0]) == [0];
    assert Scoring.SortDesc([1, 0]) == [1, 0];
    assert Scoring.SortDesc([3, 1, 0]) == [3, 1, 0];
    ScoreMeansComplete(Collection(3, 3, 1, 0), DefaultTarget);
  }

  // ---------------------------------------------------------------------
  // Auction invariants
  // ---------------------------------------------------------------------

  /** A score of 1 was earned by a complete collection. */
  predicate Earned(owned: map<Artist, nat>, score: nat, target: seq<int>)
  {
    score == 1 ==>
      && HasEveryKind(owned)
      && Scoring.TargetFits(target, |Artists|)
      && Scoring.Dominates(Counts(owned), target)
  }

  /** Every score of 1 in the auction was earned. */
  predicate ScoresEarned(a: Auction)
  {
    forall id :: id in a.players ==>
      Earned(a.players[id].paintingsOwned, a.players[id].score, a.target)
  }

  /** What every constructed auction satisfies between operations. */
  predicate Valid(a: Auction)
  {
    && a.currentRound <= |a.paintingOrder|
    && |a.winnerIds| == a.currentRound
    && |a.amountsPaid| == a.currentRound
    && (forall i :: 0 <= i < |a.winnerIds| ==> a.winnerIds[i] in a.players)
    && (forall id :: id in a.players ==>
          HasEveryKind(a.players[id].paintingsOwned) && a.players[id].score <= 1)
  }

  /** No budget is negative. */
  predicate Solvent(a: Auction)
  {
    forall id :: id in a.players ==> a.players[id].budget >= 0
  }

  /** Every player has a bid (no `None` left for the sort to trip on). */
  predicate BidsPlaced(a: Auction)
  {
    forall id :: id in a.players ==> a.players[id].currentBid.Some?
  }

  /** Every bid is placed and lies between 0 and the bidder's budget. */
  predicate BidsInRange(a: Auction)
  {
    forall id :: id in a.players ==>
      a.players[id].currentBid.Some? && 0 <= a.players[id].currentBid.value <= a.players[id].budget
  }

  /** Every player has a bid, and no bid exceeds its bidder's budget; the
      only bound `register_bid` as written enforces. */
  predicate BidsWithinBudget(a: Auction)
  {
    forall id :: id in a.players ==>
      a.players[id].currentBid.Some? && a.players[id].currentBid.value <= a.players[id].budget
  }

  /** The win flag is set exactly when some player has a completed collection. */
  predicate WonConsistent(a: Auction)
  {
    a.playerWon <==> exists id :: id in a.players && a.players[id].score == 1
  }

  // ---------------------------------------------------------------------
  // Construction
  // ---------------------------------------------------------------------

  /** The random painting order: `artists[random.randint(0, 3)]` per round,
      with the draws supplied by the caller. */
  function DrawPaintingOrder(draws: seq<nat>): (order: seq<Artist>)
    requires forall i :: 0 <= i < |draws| ==> draws[i] < |Artists|
    ensures |order| == |draws|
    ensures forall i :: 0 <= i < |draws| ==> order[i] == Artists[draws[i]]
  {
    seq(|draws|, i requires 0 <= i < |draws| => Artists[draws[i]])
  }

  /** `Auctioneer(players, painting_order, target_collection)`: every player
      starts fresh with the starting budget; without an explicit order,
      `RoundLimit` paintings are drawn. */
  function NewAuction(
    players: set<PlayerId>,
    paintingOrder: Option<seq<Artist>>,
    draws: seq<nat>,
    target: seq<int>,
    start: Timestamp): (a: Auction)
    requires paintingOrder.None? ==>
      |draws| == RoundLimit && forall i :: 0 <= i < |draws| ==> draws[i] < |Artists|
    ensures a.players.Keys == players
    ensures forall id :: id in players ==> a.players[id] == NewParticipantState(StartingBudget)
    ensures paintingOrder.Some? ==> a.paintingOrder == paintingOrder.value
    ensures paintingOrder.None? ==> |a.paintingOrder| == RoundLimit
    ensures paintingOrder.None? ==> a.paintingOrder == DrawPaintingOrder(draws)
    ensures a.target == target && a.auctionStart == start
    ensures a.currentRound == 0 && !a.playerWon
    ensures a.winnerIds == [] && a.amountsPaid == []
    ensures Valid(a) && Solvent(a) && WonConsistent(a) && !Finished(a)
  {
    var order := if paintingOrder.Some? then paintingOrder.value else DrawPaintingOrder(draws);
    Auction(
      map id | id in players :: NewParticipantState(StartingBudget),
      order, target, 0, false, [], [], start)
  }

  // ---------------------------------------------------------------------
  // Operations
  // ---------------------------------------------------------------------

  /** `finished`: the last round index is reached or someone completed a collection. */
  predicate Finished(a: Auction)
  {
    a.currentRound == RoundLimit - 1 || a.playerWon
  }

  /** `start_round`: every bid becomes 0; nothing else changes. */
  function StartRound(a: Auction): (r: Auction)
    ensures r.players.Keys == a.players.Keys
    ensures forall id :: id in r.players ==> r.players[id].currentBid == Some(0)
    ensures forall id :: id in r.players ==>
      r.players[id].(currentBid := a.players[id].currentBid) == a.players[id]
    ensures r.(players := a.players) == a
    ensures Valid(a) ==> Valid(r)
    ensures Solvent(a) ==> Solvent(r) && BidsInRange(r)
  {
    a.(players := map id | id in a.players :: a.players[id].(currentBid := Some(0)))
  }

  /** `register_bid` as written: a bid is accepted when it does not exceed
      the budget, so a negative bid is accepted too. */
  function RegisterBidAsWritten(a: Auction, id: PlayerId, bid: int): (r: BidResult)
    requires id in a.players
    ensures r.accepted <==> bid <= a.players[id].budget
    ensures r.auction.players.Keys == a.players.Keys
    ensures r.auction.players[id].currentBid == Some(if r.accepted then bid else 0)
    ensures r.auction.players[id].(currentBid := a.players[id].currentBid) == a.players[id]
    ensures forall q :: q in a.players && q != id ==> r.auction.players[q] == a.players[q]
    ensures r.auction.(players := a.players) == a
  {
    var ps := a.players[id];
    if bid <= ps.budget then
      BidResult(a.(players := a.players[id := ps.(currentBid := Some(bid))]), true)
    else
      BidResult(a.(players := a.players[id := ps.(currentBid := Some(0))]), false)
  }

  /** `register_bid` with the sign check the auction evidently needs: a bid
      is accepted when it lies between 0 and the budget; a rejected bid
      leaves 0. Only the bidder's current bid changes. */
  function RegisterBid(a: Auction, id: PlayerId, bid: int): (r: BidResult)
    requires id in a.players
    ensures r.accepted <==> 0 <= bid <= a.players[id].budget
    ensures r.auction.players.Keys == a.players.Keys
    ensures r.auction.players[id].currentBid == Some(if r.accepted then bid else 0)
    ensures r.auction.players[id].(currentBid := a.players[id].currentBid) == a.players[id]
    ensures forall q :: q in a.players && q != id ==> r.auction.players[q] == a.players[q]
    ensures r.auction.(players := a.players) == a
    ensures Valid(a) ==> Valid(r.auction)
    ensures Solvent(a) ==> Solvent(r.auction)
    ensures BidsInRange(a) ==> BidsInRange(r.auction)
  {
    var ps := a.players[id];
    if 0 <= bid <= ps.budget then
      BidResult(a.(players := a.players[id := ps.(currentBid := Some(bid))]), true)
    else
      BidResult(a.(players := a.players[id := ps.(currentBid := Some(0))]), false)
  }

  /** The bid-then-key order of the sort: `x` ranks above `y`. */
  predicate Outranks(x: ParticipantState, kx: real, y: ParticipantState, ky: real)
  {
    Bid(x) > Bid(y) || (Bid(x) == Bid(y) && kx > ky)
  }

  /** Every player has a tie-break key and no two players share one. */
  predicate TieKeysFit(a: Auction, keys: map<PlayerId, real>)
  {
    && (forall id :: id in a.players ==> id in keys)
    && (forall x, y :: x in a.players && y in a.players && x != y ==> keys[x] != keys[y])
  }

  /** `w` heads the ranking: it outranks every other player. */
  predicate IsRoundWinner(a: Auction, keys: map<PlayerId, real>, w: PlayerId)
    requires TieKeysFit(a, keys)
  {
    && w in a.players
    && forall v :: v in a.players && v != w ==>
         Outranks(a.players[w], keys[w], a.players[v], keys[v])
  }

  /** Every non-empty part of the roster has a head. */
  lemma {:induction false} TopOf(a: Auction, keys: map<PlayerId, real>, s: set<PlayerId>) returns (w: PlayerId)
    requires TieKeysFit(a, keys)
    requires s != {} && s <= a.players.Keys
    ensures w in s
    ensures forall v :: v in s && v != w ==> Outranks(a.players[w], keys[w], a.players[v], keys[v])
    decreases s
  {
    var x :| x in s;
    if s == {x} {
      w := x;
    } else {
      var w' := TopOf(a, keys, s - {x});
      if Outranks(a.players[x], keys[x], a.players[w'], keys[w']) {
        w := x;
      } else {
        w := w';
      }
    }
  }

  lemma WinnerExists(a: Auction, keys: map<PlayerId, real>)
    requires TieKeysFit(a, keys) && |a.players| > 0
    ensures exists w :: IsRoundWinner(a, keys, w)
  {
    var k :| k in a.players;
    var w := TopOf(a, keys, a.players.Keys);
    assert IsRoundWinner(a, keys, w);
  }

  /** The head of `sorted(players, key=(bid, key), reverse=True)`. With
      `WinnerPays` = 1 the winner's position `min(WinnerPays, n) - 1` is 0. */
  function RoundWinner(a: Auction, keys: map<PlayerId, real>): (w: PlayerId)
    requires TieKeysFit(a, keys) && |a.players| > 0
    ensures IsRoundWinner(a, keys, w)
  {
    WinnerExists(a, keys);
    var w :| IsRoundWinner(a, keys, w);
    w
  }

  /** The fields fixed at construction: painting order, target and start time. */
  predicate SameSetup(a: Auction, b: Auction)
  {
    a.paintingOrder == b.paintingOrder && a.target == b.target && a.auctionStart == b.auctionStart
  }

  /** `_compute_round_winner`'s effect: the winner pays its own bid, gains the
      round's painting, and both are appended to the history. */
  function Award(a: Auction, w: PlayerId): (r: Auction)
    requires w in a.players && HasEveryKind(a.players[w].paintingsOwned)
    requires a.currentRound < |a.paintingOrder|
    ensures r.players.Keys == a.players.Keys
    ensures var p := a.paintingOrder[a.currentRound]; var ps := a.players[w];
      && r.players[w].budget == ps.budget - Bid(ps)
      && r.players[w].paintingsOwned == ps.paintingsOwned[p := ps.paintingsOwned[p] + 1]
      && r.players[w].currentBid == ps.currentBid
      && r.players[w].score == ps.score
    ensures forall q :: q in a.players && q != w ==> r.players[q] == a.players[q]
    ensures r.winnerIds == a.winnerIds + [w]
    ensures r.amountsPaid == a.amountsPaid + [Bid(a.players[w])]
    ensures SameSetup(a, r) && r.currentRound == a.currentRound && r.playerWon == a.playerWon
  {
    var ps := a.players[w];
    var painting := a.paintingOrder[a.currentRound];
    var ps' := ps.(
      budget := ps.budget - Bid(ps),
      paintingsOwned := ps.paintingsOwned[painting := ps.paintingsOwned[painting] + 1]);
    a.(players := a.players[w := ps'],
       amountsPaid := a.amountsPaid + [Bid(ps)],
       winnerIds := a.winnerIds + [w])
  }

  /** One player's state with its score recomputed. */
  function Rescored(ps: ParticipantState, target: seq<int>): (r: ParticipantState)
    requires HasEveryKind(ps.paintingsOwned)
    requires Scoring.TargetFits(target, |Artists|)
    ensures r.paintingsOwned == ps.paintingsOwned && r.budget == ps.budget
    ensures r.currentBid == ps.currentBid
    ensures r.score == ScoreOf(ps.paintingsOwned, target)
  {
    ps.(score := ScoreOf(ps.paintingsOwned, target))
  }

  /** `_update_scores`: every score recomputed; the win flag is set when any
      player completes a collection and is never cleared. */
  function UpdateScores(a: Auction): (r: Auction)
    requires Scoring.TargetFits(a.target, |Artists|)
    requires forall id :: id in a.players ==> HasEveryKind(a.players[id].paintingsOwned)
    ensures r.players.Keys == a.players.Keys
    ensures forall id :: id in r.players ==> r.players[id] == Rescored(a.players[id], a.target)
    ensures r.playerWon <==> a.playerWon || AnyCompleted(r.players)
    ensures SameSetup(a, r) && r.currentRound == a.currentRound
    ensures r.winnerIds == a.winnerIds && r.amountsPaid == a.amountsPaid
  {
    var scored := map id | id in a.players :: Rescored(a.players[id], a.target);
    a.(players := scored, playerWon := a.playerWon || AnyCompleted(scored))
  }

  /** Some player holds a score of 1. */
  predicate AnyCompleted(players: map<PlayerId, ParticipantState>)
  {
    exists id :: id in players && players[id].score == 1
  }

  /** What resolving a round needs, whoever wins it: every bid placed, a
      painting left for the round, and a target the score test can read. */
  predicate CanResolve(a: Auction)
  {
    && Valid(a)
    && BidsPlaced(a)
    && a.currentRound < |a.paintingOrder|
    && Scoring.TargetFits(a.target, |Artists|)
  }

  /** The rest of `finish_round` once the winner `w` is known: award,
      rescore, summarise the round, advance. */
  function ResolveRound(a: Auction, w: PlayerId): (r: RoundResult)
    requires CanResolve(a) && w in a.players
    // the summary describes the round just resolved
    ensures r.summary.roundWinner == w
    ensures r.summary.amountPaid == Bid(a.players[w])
    ensures r.summary.currentRound == a.currentRound
    ensures r.summary.painting == a.paintingOrder[a.currentRound]
    ensures r.summary.auctionStart == a.auctionStart
    // one step of history, one round further
    ensures r.auction.currentRound == a.currentRound + 1
    ensures r.auction.winnerIds == a.winnerIds + [w]
    ensures r.auction.amountsPaid == a.amountsPaid + [Bid(a.players[w])]
    ensures SameSetup(a, r.auction)
    ensures r.auction.players.Keys == a.players.Keys
  {
    var awarded := Award(a, w);
    var scored := UpdateScores(awarded);
    var summary := RoundSummary(
      a.auctionStart,
      scored.currentRound,
      scored.winnerIds[scored.currentRound],
      scored.paintingOrder[scored.currentRound],
      scored.amountsPaid[scored.currentRound]);
    RoundResult(scored.(currentRound := scored.currentRound + 1), summary)
  }

  /** A player after resolution is its awarded state, rescored. */
  lemma ResolvedPlayer(a: Auction, w: PlayerId, q: PlayerId)
    requires CanResolve(a) && w in a.players && q in a.players
    ensures q in Award(a, w).players
    ensures ResolveRound(a, w).auction.players[q] == Rescored(Award(a, w).players[q], a.target)
  {
  }

  /** Resolution keeps the auction well formed: one more history entry per
      list, every collection still covers every kind, every score 0 or 1. */
  lemma ResolveRoundValid(a: Auction, w: PlayerId)
    requires CanResolve(a) && w in a.players
    ensures Valid(ResolveRound(a, w).auction)
  {
    forall q | q in a.players {
      ResolvedPlayer(a, w, q);
    }
  }

  /** The winner pays its own bid and gains one painting of the round's kind. */
  lemma ResolveRoundPaysWinner(a: Auction, w: PlayerId)
    requires CanResolve(a) && w in a.players
    ensures var r := ResolveRound(a, w); var p := a.paintingOrder[a.currentRound];
      && r.auction.players[w].budget == a.players[w].budget - Bid(a.players[w])
      && r.auction.players[w].paintingsOwned
         == a.players[w].paintingsOwned[p := a.players[w].paintingsOwned[p] + 1]
      && r.auction.players[w].currentBid == a.players[w].currentBid
  {
    ResolvedPlayer(a, w, w);
  }

  /** Every other player keeps its budget, paintings and bid. */
  lemma ResolveRoundSparesOthers(a: Auction, w: PlayerId)
    requires CanResolve(a) && w in a.players
    ensures var r := ResolveRound(a, w);
      forall q :: q in a.players && q != w ==>
        && r.auction.players[q].budget == a.players[q].budget
        && r.auction.players[q].paintingsOwned == a.players[q].paintingsOwned
        && r.auction.players[q].currentBid == a.players[q].currentBid
  {
    forall q | q in a.players && q != w {
      ResolvedPlayer(a, w, q);
    }
  }

  /** Every score is recomputed from the owned paintings after the award,
      and the win flag rises when any player holds a score of 1. */
  lemma ResolveRoundRescores(a: Auction, w: PlayerId)
    requires CanResolve(a) && w in a.players
    ensures var r := ResolveRound(a, w);
      && (forall q :: q in a.players ==>
            r.auction.players[q].score == ScoreOf(r.auction.players[q].paintingsOwned, a.target))
      && (r.auction.playerWon <==> a.playerWon || AnyCompleted(r.auction.players))
  {
    forall q | q in a.players {
      ResolvedPlayer(a, w, q);
    }
  }

  /** With every bid between 0 and its bidder's budget, resolution leaves
      every budget between 0 and what it was: nobody goes into debt and
      nobody gains money. */
  lemma ResolveRoundBudgetBounds(a: Auction, w: PlayerId)
    requires CanResolve(a) && w in a.players && BidsInRange(a)
    ensures var r := ResolveRound(a, w);
      forall q :: q in a.players ==> 0 <= r.auction.players[q].budget <= a.players[q].budget
  {
    ResolveRoundPaysWinner(a, w);
    ResolveRoundSparesOthers(a, w);
  }

  /** Gaining one painting of kind `p` raises exactly the count at `p`'s position. */
  lemma CountsOfGain(owned: map<Artist, nat>, p: Artist)
    requires HasEveryKind(owned)
    ensures HasEveryKind(owned[p := owned[p] + 1])
    ensures var j := ArtistIndex(p);
      Counts(owned[p := owned[p] + 1]) == Counts(owned)[j := Counts(owned)[j] + 1]
  {
  }

  /** A complete collection stays complete after gaining a painting. */
  lemma GainKeepsComplete(owned: map<Artist, nat>, p: Artist, target: seq<int>)
    requires HasEveryKind(owned) && Scoring.TargetFits(target, |Artists|)
    requires Scoring.Dominates(Counts(owned), target)
    ensures HasEveryKind(owned[p := owned[p] + 1])
    ensures ScoreOf(owned[p := owned[p] + 1], target) == 1
  {
    CountsOfGain(owned, p);
    Scoring.DominatesMonotone(Counts(owned), target, ArtistIndex(p));
  }

  /** The winner's score after the round is the score of its enlarged collection. */
  lemma WinnerRescored(a: Auction, w: PlayerId)
    requires CanResolve(a) && w in a.players
    ensures var owned := a.players[w].paintingsOwned; var p := a.paintingOrder[a.currentRound];
      && HasEveryKind(owned[p := owned[p] + 1])
      && ResolveRound(a, w).auction.players[w].score == ScoreOf(owned[p := owned[p] + 1], a.target)
  {
    ResolvedPlayer(a, w, w);
  }

  /** The round's winner keeps a complete collection complete. */
  lemma WinnerKeepsCompletion(a: Auction, w: PlayerId)
    requires CanResolve(a) && w in a.players
    requires Scoring.Dominates(Counts(a.players[w].paintingsOwned), a.target)
    ensures ResolveRound(a, w).auction.players[w].score == 1
  {
    WinnerRescored(a, w);
    GainKeepsComplete(a.players[w].paintingsOwned, a.paintingOrder[a.currentRound], a.target);
  }

  /** A player other than the winner keeps its paintings and so its
      completion. */
  lemma OtherKeepsCompletion(a: Auction, w: PlayerId, q: PlayerId)
    requires CanResolve(a) && w in a.players && q in a.players && q != w
    requires Scoring.Dominates(Counts(a.players[q].paintingsOwned), a.target)
    ensures ResolveRound(a, w).auction.players[q].score == 1
  {
    ResolveRoundRescores(a, w);
    ResolveRoundSparesOthers(a, w);
  }

  /** A complete collection stays complete: paintings are only ever gained. */
  lemma ResolveRoundKeepsCompletion(a: Auction, w: PlayerId, q: PlayerId)
    requires CanResolve(a) && q in a.players && w in a.players
    requires Scoring.Dominates(Counts(a.players[q].paintingsOwned), a.target)
    ensures ResolveRound(a, w).auction.players[q].score == 1
  {
    if q == w {
      WinnerKeepsCompletion(a, w);
    } else {
      OtherKeepsCompletion(a, w, q);
    }
  }

  /** Resolution keeps the win flag in step with the scores, provided every
      score of 1 was earned by a complete collection. */
  lemma ResolveRoundKeepsWonConsistent(a: Auction, w: PlayerId)
    requires CanResolve(a) && w in a.players
    requires WonConsistent(a) && ScoresEarned(a)
    ensures WonConsistent(ResolveRound(a, w).auction)
    ensures ScoresEarned(ResolveRound(a, w).auction)
  {
    var r := ResolveRound(a, w).auction;
    ResolveRoundRescores(a, w);
    if a.playerWon {
      var q :| q in a.players && a.players[q].score == 1;
      ResolveRoundKeepsCompletion(a, w, q);
      assert q in r.players;
    }
  }

  /** A player scoring 1 after a round ends the auction: the win flag is
      set, so `finished` holds whatever the round index. */
  lemma CompletionFinishes(a: Auction, w: PlayerId, q: PlayerId)
    requires CanResolve(a) && w in a.players && q in a.players
    requires ResolveRound(a, w).auction.players[q].score == 1
    ensures ResolveRound(a, w).auction.playerWon
    ensures Finished(ResolveRound(a, w).auction)
  {
    ResolveRoundRescores(a, w);
    assert q in ResolveRound(a, w).auction.players;
  }

  /** Resolution keeps every invariant the arena relies on, provided every
      bid lies between 0 and its bidder's budget. */
  lemma ResolveRoundKeepsInvariants(a: Auction, w: PlayerId)
    requires CanResolve(a) && w in a.players && BidsInRange(a)
    requires WonConsistent(a) && ScoresEarned(a)
    ensures var r := ResolveRound(a, w).auction;
      Valid(r) && Solvent(r) && WonConsistent(r) && ScoresEarned(r)
  {
    ResolveRoundValid(a, w);
    ResolveRoundBudgetBounds(a, w);
    ResolveRoundKeepsWonConsistent(a, w);
  }

  /** What `finish_round` needs so that no index, key or comparison fails:
      a non-empty roster (the winner's index is -1 otherwise) and a
      tie-break key for every player. */
  predicate CanFinishRound(a: Auction, keys: map<PlayerId, real>)
  {
    && CanResolve(a)
    && |a.players| > 0
    && TieKeysFit(a, keys)
  }

  /** `finish_round`: the head of the ranking wins and the round is resolved
      with that winner. */
  function FinishRound(a: Auction, keys: map<PlayerId, real>): (r: RoundResult)
    requires CanFinishRound(a, keys)
    ensures IsRoundWinner(a, keys, r.summary.roundWinner)
    ensures forall v :: v in a.players ==> Bid(a.players[v]) <= r.summary.amountPaid
    ensures r == ResolveRound(a, r.summary.roundWinner)
  {
    var w := RoundWinner(a, keys);
    var r := ResolveRound(a, w);
    assert forall v :: v in a.players ==> Bid(a.players[v]) <= Bid(a.players[w]) by {
      forall v | v in a.players && v != w
        ensures Bid(a.players[v]) <= Bid(a.players[w])
      {
        assert Outranks(a.players[w], keys[w], a.players[v], keys[v]);
      }
    }
    r
  }

  /** `start_round` leaves every player a bid of 0, within a solvent budget. */
  lemma StartRoundWithinBudget(a: Auction)
    requires Solvent(a)
    ensures BidsWithinBudget(StartRound(a))
  {
  }

  /** `register_bid` as written stores either a bid not above the budget or
      0, so on a solvent auction every bid stays within its budget. */
  lemma RegisterBidAsWrittenWithinBudget(a: Auction, id: PlayerId, bid: int)
    requires id in a.players
    requires Solvent(a) && BidsWithinBudget(a)
    ensures BidsWithinBudget(RegisterBidAsWritten(a, id, bid).auction)
    ensures Solvent(RegisterBidAsWritten(a, id, bid).auction)
  {
  }

  /** The engine as written keeps budgets from going negative: the winner
      pays a bid not above its budget and nobody else pays. It does not
      keep budgets from growing, as `NegativeBidsEnrichWinner` shows. */
  lemma ResolveRoundKeepsSolventAsWritten(a: Auction, w: PlayerId)
    requires CanResolve(a) && w in a.players && Solvent(a) && BidsWithinBudget(a)
    ensures Solvent(ResolveRound(a, w).auction)
  {
    ResolveRoundPaysWinner(a, w);
    ResolveRoundSparesOthers(a, w);
  }

  /** When every bid is negative, the round's winner pays a negative amount
      and so ends the round richer than it started. */
  lemma NegativeBidsEnrichWinner(a: Auction, keys: map<PlayerId, real>)
    requires CanFinishRound(a, keys)
    requires forall id :: id in a.players ==> Bid(a.players[id]) < 0
    ensures var r := FinishRound(a, keys); var w := r.summary.roundWinner;
      r.auction.players[w].budget > a.players[w].budget
  {
    var w := FinishRound(a, keys).summary.roundWinner;
    ResolveRoundPaysWinner(a, w);
  }

  /** With `register_bid` as written, bids of -10 and -20 from the two
      players "x" and "y" of a fresh auction are both accepted. */
  lemma TwoNegativeBids() returns (a: Auction)
    ensures var a0 := StartRound(NewAuction({"x", "y"}, Some([DaVinci]), [], DefaultTarget, 0));
      var b1 := RegisterBidAsWritten(a0, "x", -10);
      var b2 := RegisterBidAsWritten(b1.auction, "y", -20);
      b1.accepted && b2.accepted && a == b2.auction
    ensures a.players.Keys == {"x", "y"}
    ensures a.players["x"].currentBid == Some(-10) && a.players["y"].currentBid == Some(-20)
    ensures a.players["x"].budget == StartingBudget && a.players["y"].budget == StartingBudget
    ensures CanResolve(a)
  {
    var a0 := StartRound(NewAuction({"x", "y"}, Some([DaVinci]), [], DefaultTarget, 0));
    var b1 := RegisterBidAsWritten(a0, "x", -10);
    var b2 := RegisterBidAsWritten(b1.auction, "y", -20);
    assert "x" != "y";
    a := b2.auction;
  }

  /** The tie-break keys used below: "x" draws 0.0 and "y" draws 0.5. */
  const TwoKeys: map<PlayerId, real> := map["x" := 0.0, "y" := 0.5]

  /** The round that follows those two bids can be resolved, and "x", the
      higher bidder, wins it. */
  lemma NegativeBidWinner(a: Auction)
    requires a.players.Keys == {"x", "y"}
    requires a.players["x"].currentBid == Some(-10) && a.players["y"].currentBid == Some(-20)
    requires CanResolve(a)
    ensures CanFinishRound(a, TwoKeys)
    ensures FinishRound(a, TwoKeys).summary.roundWinner == "x"
  {
    TwoKeysFit(a);
  }

  lemma TwoKeysFit(a: Auction)
    requires a.players.Keys == {"x", "y"}
    requires CanResolve(a)
    ensures CanFinishRound(a, TwoKeys)
  {
    assert "x" != "y";
    assert "x" in a.players;
  }

  /** In that round "x" pays -10 and ends with 1011, more than the starting
      budget. */
  lemma NegativeBidRaisesBudget(a: Auction)
    requires a.players.Keys == {"x", "y"}
    requires a.players["x"].currentBid == Some(-10) && a.players["y"].currentBid == Some(-20)
    requires a.players["x"].budget == StartingBudget
    requires CanResolve(a)
    ensures CanFinishRound(a, TwoKeys)
    ensures FinishRound(a, TwoKeys).auction.players["x"].budget == StartingBudget + 10
  {
    NegativeBidWinner(a);
    ResolveRoundPaysWinner(a, "x");
  }

  /** The corrected `register_bid` turns the same negative bid away. */
  lemma NegativeBidRejected()
    ensures var a0 := StartRound(NewAuction({"x", "y"}, Some([DaVinci]), [], DefaultTarget, 0));
      !RegisterBid(a0, "x", -10).accepted
  {
  }

  /** `compute_auction_winners`: no winners without players, otherwise
      exactly the players whose score no other player exceeds. */
  function ComputeAuctionWinners(a: Auction): (r: set<PlayerId>)
    ensures r == {} <==> a.players == map[]
    ensures forall id :: id in r <==>
      id in a.players && forall q :: q in a.players ==> a.players[q].score <= a.players[id].score
  {
    if a.players == map[] then {}
    else
      var m := MaxScore(a);
      var top :| top in a.players && a.players[top].score == m;
      var r := set id | id in a.players && a.players[id].score == m;
      assert top in r;
      r
  }

  /** `max(player.score for player in players)`. */
  function MaxScore(a: Auction): (m: nat)
    requires a.players != map[]
    ensures exists id :: id in a.players && a.players[id].score == m
    ensures forall id :: id in a.players ==> a.players[id].score <= m
  {
    var scores := set id | id in a.players :: a.players[id].score;
    assert forall id :: id in a.players ==> a.players[id].score in scores;
    var k :| k in a.players;
    LargestOf(scores)
  }

  /** The largest element of a finite non-empty set of naturals. */
  function LargestOf(s: set<nat>): (m: nat)
    requires s != {}
    ensures m in s && forall x :: x in s ==> x <= m
  {
    LargestExists(s);
    var m :| m in s && forall x :: x in s ==> x <= m;
    m
  }

  lemma {:induction false} LargestExists(s: set<nat>)
    requires s != {}
    ensures exists m :: m in s && forall x :: x in s ==> x <= m
    decreases s
  {
    var y :| y in s;
    if s != {y} {
      LargestExists(s - {y});
      var m :| m in s - {y} && forall x :: x in s - {y} ==> x <= m;
      var top := if y > m then y else m;
      forall x | x in s
        ensures x <= top
      {
        if x != y {
          assert x in s - {y};
        }
      }
    }
  }

  /** Once someone has completed a collection, the auction's winners are
      exactly the players holding a score of 1. */
  lemma WinnersAreCompleters(a: Auction)
    requires Valid(a) && WonConsistent(a) && a.playerWon
    ensures ComputeAuctionWinners(a) == set id | id in a.players && a.players[id].score == 1
  {
  }

  /** Without a completed collection every score is 0 and every player is a
      winner. */
  lemma DrawMakesEveryoneWinner(a: Auction)
    requires Valid(a) && WonConsistent(a) && !a.playerWon
    ensures ComputeAuctionWinners(a) == a.players.Keys
  {
  }

  /** `summary_state`, whose `current_painting` indexes the painting order. */
  function Summary(a: Auction): (s: SummaryState)
    requires a.currentRound < |a.paintingOrder|
    ensures s.currentPainting == a.paintingOrder[a.currentRound]
    ensures s.currentRound == a.currentRound
    ensures s.winnerIds == a.winnerIds && s.amountsPaid == a.amountsPaid
    ensures s.paintingOrder == a.paintingOrder && s.target == a.target
    ensures s.winnerPays == WinnerPays && s.roundLimit == RoundLimit && s.startingBudget == StartingBudget
    ensures s.artistsAndValues.Keys == set art | art in Artists
    ensures forall art :: art in s.artistsAndValues ==> s.artistsAndValues[art] == ArtistValue(art)
  {
    SummaryState(
      a.currentRound,
      WinnerPays,
      map art | art in Artists :: ArtistValue(art),
      RoundLimit,
      StartingBudget,
      a.paintingOrder,
      a.target,
      a.paintingOrder[a.currentRound],
      a.winnerIds,
      a.amountsPaid)
  }
}

=== FILE: client.dfy ===
/**
 * The client of cs404x (cs404x/client.py) as a reducer over its state: each
 * message handler maps a `ClientState` to the next one. The bot's bidding
 * strategy is external code, so the bot instance a START creates and the
 * bid a bot answers with arrive as inputs alongside each message. Logging
 * and the CSV file written at END are not modelled.
 */
module Client {
  import opened Wrappers
  import opened Auctioneer
  import opened Messages

  /** One instance of the user's bot class; only its identity matters here. */
  datatype Bot = Bot(instance: nat)

  /** One row of the auction telemetry: the round summary plus whether this
      client won the round. */
  datatype TelemetryRecord = TelemetryRecord(summary: RoundSummary, roundWinnerIsYou: bool)

  datatype ClientState = ClientState(
    bot: Option<Bot>,
    participantId: Option<PlayerId>,
    auctionsWon: nat,
    auctionsTotal: nat,
    telemetry: seq<TelemetryRecord>)

  /** A message as delivered, with the bot instance `bot_cls()` would build
      for a START and the bid the bot would answer a BID_REQUEST with. */
  datatype Delivery = Delivery(message: Message, newBot: Bot, bid: int)

  /** The outcome of handling one message: the next state and the reply
      sent, if any; `Crashed` when the handler raises. */
  datatype Outcome =
    | Continue(state: ClientState, reply: Option<Message>)
    | Crashed

  /** The state before the first message: no bot, no id, no auctions. */
  function InitialClient(): (s: ClientState)
    ensures s.bot.None? && s.participantId.None?
    ensures s.auctionsWon == 0 && s.auctionsTotal == 0 && s.telemetry == []
  {
    ClientState(None, None, 0, 0, [])
  }

  /** Never more auctions won than played. */
  predicate Consistent(s: ClientState)
  {
    s.auctionsWon <= s.auctionsTotal
  }

  /** `_on_queued`: the id the arena assigned is remembered. */
  function OnQueued(s: ClientState, info: QueuedInfo): (r: ClientState)
    ensures r.participantId == Some(info.participantId)
    ensures r.(participantId := s.participantId) == s
  {
    s.(participantId := Some(info.participantId))
  }

  /** `_on_start`: a fresh bot replaces the previous one. */
  function OnStart(s: ClientState, newBot: Bot): (r: ClientState)
    ensures r.bot == Some(newBot)
    ensures r.(bot := s.bot) == s
  {
    s.(bot := Some(newBot))
  }

  /** `_on_end`: the telemetry is cleared; an auction that ended with a
      single participant is not counted, any other counts once, and as a
      win when `won` is set. */
  function OnEnd(s: ClientState, info: EndInfo): (r: ClientState)
    ensures r.telemetry == []
    ensures r.bot == s.bot && r.participantId == s.participantId
    ensures info.participants == 1 ==>
      r.auctionsTotal == s.auctionsTotal && r.auctionsWon == s.auctionsWon
    ensures info.participants != 1 ==>
      && r.auctionsTotal == s.auctionsTotal + 1
      && r.auctionsWon == s.auctionsWon + (if info.won then 1 else 0)
    ensures Consistent(s) ==> Consistent(r)
  {
    if info.participants == 1 then
      s.(telemetry := [])
    else
      s.(auctionsTotal := s.auctionsTotal + 1,
         auctionsWon := if info.won then s.auctionsWon + 1 else s.auctionsWon,
         telemetry := [])
  }

  /** `_on_telemetry`: one record is appended, marked as won exactly when
      the client knows its id and that id won the round. */
  function OnTelemetry(s: ClientState, summary: RoundSummary): (r: ClientState)
    ensures |r.telemetry| == |s.telemetry| + 1
    ensures r.telemetry[..|s.telemetry|] == s.telemetry
    ensures r.telemetry[|s.telemetry|].summary == summary
    ensures r.telemetry[|s.telemetry|].roundWinnerIsYou <==>
      s.participantId.Some? && s.participantId.value == summary.roundWinner
    ensures r.(telemetry := s.telemetry) == s
  {
    var mine := s.participantId == Some(summary.roundWinner);
    s.(telemetry := s.telemetry + [TelemetryRecord(summary, mine)])
  }

  /** The client's dispatch: INFO and WARNING are only logged; a BID_REQUEST
      is answered with the bot's bid and raises when no START has created a
      bot yet; WIN and BID_REPLY have no handler, so the lookup raises. */
  function Handle(s: ClientState, d: Delivery): (o: Outcome)
    ensures o.Crashed? <==>
      d.message.Win? || d.message.BidReply? || (d.message.BidRequest? && s.bot.None?)
    ensures o.Continue? && o.reply.Some? ==>
      d.message.BidRequest? && o.reply == Some(BidReply(d.bid)) && o.state == s
    ensures o.Continue? && (d.message.Info? || d.message.Warning?) ==> o == Continue(s, None)
    ensures d.message.BidRequest? && s.bot.Some? ==> o == Continue(s, Some(BidReply(d.bid)))
    ensures d.message.Queued? ==> o == Continue(OnQueued(s, d.message.queued), None)
    ensures d.message.Start? ==> o == Continue(OnStart(s, d.newBot), None)
    ensures d.message.End? ==> o == Continue(OnEnd(s, d.message.ended), None)
    ensures d.message.RoundTelemetry? ==> o == Continue(OnTelemetry(s, d.message.summary), None)
    ensures o.Continue? && Consistent(s) ==> Consistent(o.state)
    ensures o.Continue? ==>
      && o.state.auctionsTotal <= s.auctionsTotal + 1
      && (o.state.auctionsTotal == s.auctionsTotal ==> o.state.auctionsWon == s.auctionsWon)
  {
    match d.message
    case Info(_) => Continue(s, None)
    case Warning(_) => Continue(s, None)
    case Queued(info) => Continue(OnQueued(s, info), None)
    case Start => Continue(OnStart(s, d.newBot), None)
    case End(info) => Continue(OnEnd(s, info), None)
    case RoundTelemetry(summary) => Continue(OnTelemetry(s, summary), None)
    case BidRequest(_) => if s.bot.None? then Crashed else Continue(s, Some(BidReply(d.bid)))
    case Win => Crashed
    case BidReply(_) => Crashed
  }

  /** Where the client loop ended: its last state, how many messages it
      handled, whether a handler raised, and the replies it sent. */
  datatype RunResult = RunResult(state: ClientState, handled: nat, crashed: bool, replies: seq<Message>)

  /** The loop of `client`: messages are handled in order, and the loop
      stops right after a message leaves `auctions_total` equal to
      `numAuctions`, when a handler raises, or when the connection closes. */
  function Run(s: ClientState, ds: seq<Delivery>, numAuctions: int): (r: RunResult)
    ensures r.handled <= |ds|
    ensures !r.crashed && r.handled < |ds| ==> r.state.auctionsTotal == numAuctions && r.handled > 0
    ensures Consistent(s) ==> Consistent(r.state)
    ensures s.auctionsTotal < numAuctions ==> r.state.auctionsTotal <= numAuctions
    ensures r.state.auctionsTotal <= s.auctionsTotal + r.handled
    ensures !r.crashed ==> Prefix(s, ds, r.handled) == Continue(r.state, None)
    ensures r.crashed ==> r.handled < |ds| && Prefix(s, ds, r.handled + 1).Crashed?
    ensures r.replies == RepliesOf(s, ds, r.handled)
    decreases |ds|
  {
    if |ds| == 0 then RunResult(s, 0, false, [])
    else
      match Handle(s, ds[0])
      case Crashed => RunResult(s, 0, true, [])
      case Continue(next, reply) =>
        var sent := if reply.Some? then [reply.value] else [];
        if next.auctionsTotal == numAuctions then
          RunResult(next, 1, false, sent)
        else
          var rest := Run(next, ds[1..], numAuctions);
          RunResult(rest.state, rest.handled + 1, rest.crashed, sent + rest.replies)
  }

  /** The loop never handles a message past the one that completes the
      requested number of auctions: every state it passed through before
      stopping had a different total. */
  lemma {:induction false} RunStopsAtFirstCompletion(s: ClientState, ds: seq<Delivery>, numAuctions: int, k: nat)
    requires 0 < k < Run(s, ds, numAuctions).handled
    ensures Prefix(s, ds, k).Continue?
    ensures Prefix(s, ds, k).state.auctionsTotal != numAuctions
    decreases k
  {
    var o := Handle(s, ds[0]);
    if k > 1 {
      RunStopsAtFirstCompletion(o.state, ds[1..], numAuctions, k - 1);
    }
  }

  /** The state after handling the first `k` messages, ignoring the stop
      test; `Crashed` if one of them raises. */
  function Prefix(s: ClientState, ds: seq<Delivery>, k: nat): (o: Outcome)
    requires k <= |ds|
    ensures o.Continue? ==> o.reply.None?
    decreases k
  {
    if k == 0 then Continue(s, None)
    else
      match Handle(s, ds[0])
      case Crashed => Crashed
      case Continue(next, _) => Prefix(next, ds[1..], k - 1)
  }

  /** The replies sent while handling the first `k` messages in order,
      ignoring the stop test; a raising handler sends nothing more. */
  function RepliesOf(s: ClientState, ds: seq<Delivery>, k: nat): (rs: seq<Message>)
    requires k <= |ds|
    ensures |rs| <= k
    ensures forall i :: 0 <= i < |rs| ==> rs[i].BidReply?
    decreases k
  {
    if k == 0 then []
    else
      match Handle(s, ds[0])
      case Crashed => []
      case Continue(next, reply) =>
        (if reply.Some? then [reply.value] else []) + RepliesOf(next, ds[1..], k - 1)
  }
}

=== FILE: messages.dfy ===
/**
 * The messages exchanged between the arena and its clients (`MessageKind`
 * and `Message` in cs404x/messages.py). Each kind carries the payload the
 * arena or the client builds for it; the msgpack encoding is not modelled.
 */
module Messages {
  import opened Auctioneer

  /** The QUEUED payload: whether an auction is running, the newcomer's id,
      and the sizes of the two pools once the newcomer has joined. */
  datatype QueuedInfo = QueuedInfo(
    isInGame: bool,
    participantId: PlayerId,
    inGameCount: nat,
    waitingCount: nat)

  /** The END payload sent to each player of a finished auction. */
  datatype EndInfo = EndInfo(won: bool, participants: nat)

  /** The BID_REQUEST payload: the auction summary, the recipient's own
      public state and the public state of every player in the game. */
  datatype BidRequestInfo = BidRequestInfo(
    summary: SummaryState,
    myBotDetails: ParticipantView,
    bots: map<PlayerId, ParticipantView>)

  datatype Message =
    | Queued(queued: QueuedInfo)
    | Start
    | End(ended: EndInfo)
    | Win
    | Info(text: string)
    | Warning(text: string)
    | RoundTelemetry(summary: RoundSummary)
    | BidReply(bid: int)
    | BidRequest(request: BidRequestInfo)

  /** The warning for a bid sent from the waiting queue. */
  const QueueWarning: string := "Can't bid while in queue."

  /** The warning for a bid `register_bid` turns away. */
  const BudgetWarning: string := "Bid exceeds budget available."
}

=== FILE: scoring.dfy ===
/**
 * The collection-completion test of the auction game (`_update_scores` in
 * cs404x/auctioneer.py): a player's owned painting counts, sorted from
 * highest to lowest, must be at least the target counts, sorted the same
 * way, position by position. The test is therefore about the multiset of
 * counts and not about which artist holds which count.
 */
module Scoring {

  /** `s` is in non-increasing order, as Python's `sorted(..., reverse=True)` leaves it. */
  predicate SortedDesc(s: seq<int>)
  {
    forall i, j :: 0 <= i < j < |s| ==> s[i] >= s[j]
  }

  /** Inserts `x` in front of the first element it is not below. */
  function Insert(x: int, s: seq<int>): (r: seq<int>)
    ensures |r| == |s| + 1
  {
    if |s| == 0 then [x]
    else if x >= s[0] then [x] + s
    else [s[0]] + Insert(x, s[1..])
  }

  /** Insertion sort from highest to lowest. */
  function SortDesc(s: seq<int>): (r: seq<int>)
    ensures |r| == |s|
  {
    if |s| == 0 then [] else Insert(s[0], SortDesc(s[1..]))
  }

  /** A head no smaller than a descending tail gives a descending sequence. */
  lemma PrependSorted(h: int, s: seq<int>)
    requires SortedDesc(s)
    requires forall k :: 0 <= k < |s| ==> s[k] <= h
    ensures SortedDesc([h] + s)
  {
    var r := [h] + s;
    forall i, j | 0 <= i < j < |r|
      ensures r[i] >= r[j]
    {
      assert r[j] == s[j - 1];
      if i > 0 {
        assert r[i] == s[i - 1];
      }
    }
  }

  lemma {:induction false} InsertSorts(x: int, s: seq<int>)
    requires SortedDesc(s)
    ensures SortedDesc(Insert(x, s))
    ensures multiset(Insert(x, s)) == multiset(s) + multiset{x}
    decreases |s|
  {
    if |s| == 0 {
    } else if x >= s[0] {
      PrependSorted(x, s);
    } else {
      var tail := s[1..];
      var rest := Insert(x, tail);
      InsertSorts(x, tail);
      assert s == [s[0]] + tail;
      forall k | 0 <= k < |rest|
        ensures rest[k] <= s[0]
      {
        assert rest[k] in multiset(rest);
        if rest[k] != x {
          assert rest[k] in multiset(tail);
          var i :| 0 <= i < |tail| && tail[i] == rest[k];
          assert s[i + 1] == tail[i];
        }
      }
      PrependSorted(s[0], rest);
    }
  }

  /** `SortDesc` returns a descending permutation of its input. */
  lemma {:induction false} SortDescSorts(s: seq<int>)
    ensures SortedDesc(SortDesc(s))
    ensures multiset(SortDesc(s)) == multiset(s)
    decreases |s|
  {
    if |s| > 0 {
      SortDescSorts(s[1..]);
      InsertSorts(s[0], SortDesc(s[1..]));
      assert s == [s[0]] + s[1..];
    }
  }

  /** The largest element of a non-empty sequence (Python's `max`). */
  function MaxOf(s: seq<int>): (m: int)
    requires |s| > 0
    ensures m in s
    ensures forall i :: 0 <= i < |s| ==> s[i] <= m
  {
    if |s| == 1 then s[0]
    else
      var rest := MaxOf(s[1..]);
      assert forall i :: 1 <= i < |s| ==> s[i] == s[1..][i - 1];
      if s[0] >= rest then s[0] else rest
  }

  /** Paintings still needed at each sorted position: target minus owned. */
  function Shortfalls(target: seq<int>, owned: seq<int>): (r: seq<int>)
    requires |target| <= |owned|
    ensures |r| == |target|
  {
    if |target| == 0 then []
    else [target[0] - owned[0]] + Shortfalls(target[1..], owned[1..])
  }

  /** The target may be compared: it is non-empty (Python's `max` of an empty
      list raises) and no longer than the number of painting kinds (indexing
      the owned counts past their end raises). */
  predicate TargetFits(target: seq<int>, kinds: nat)
  {
    0 < |target| <= kinds
  }

  /** The collection test exactly as the source computes it: the largest
      shortfall between sorted target and sorted owned counts is below one. */
  predicate Complete(owned: seq<int>, target: seq<int>)
    requires TargetFits(target, |owned|)
  {
    MaxOf(Shortfalls(SortDesc(target), SortDesc(owned))) < 1
  }

  /** Position-by-position dominance of sorted counts: the reference reading
      of a completed collection. */
  predicate Dominates(owned: seq<int>, target: seq<int>)
    requires |target| <= |owned|
  {
    var o := SortDesc(owned);
    var t := SortDesc(target);
    forall i :: 0 <= i < |t| ==> o[i] >= t[i]
  }

  lemma {:induction false} ShortfallsAt(target: seq<int>, owned: seq<int>, i: int)
    requires |target| <= |owned|
    requires 0 <= i < |target|
    ensures Shortfalls(target, owned)[i] == target[i] - owned[i]
    decreases |target|
  {
    if i > 0 {
      ShortfallsAt(target[1..], owned[1..], i - 1);
    }
  }

  /** The max-of-shortfalls test computes exactly sorted dominance. */
  lemma CompleteIffDominates(owned: seq<int>, target: seq<int>)
    requires TargetFits(target, |owned|)
    ensures Complete(owned, target) <==> Dominates(owned, target)
  {
    var o := SortDesc(owned);
    var t := SortDesc(target);
    var d := Shortfalls(t, o);
    forall i | 0 <= i < |t| {
      ShortfallsAt(t, o, i);
    }
    if Dominates(owned, target) {
      var m := MaxOf(d);
      var k :| 0 <= k < |d| && d[k] == m;
      assert d[k] == t[k] - o[k];
    }
  }

  /** Two descending sequences with the same elements are equal: sorting
      depends only on the multiset sorted. */
  lemma {:induction false} SortedUnique(a: seq<int>, b: seq<int>)
    requires SortedDesc(a) && SortedDesc(b)
    requires multiset(a) == multiset(b)
    ensures a == b
    decreases |a|
  {
    assert |a| == |multiset(a)| == |b|;
    if |a| > 0 {
      SortedHeadsAgree(a, b);
      TailMultiset(a);
      TailMultiset(b);
      SortedUnique(a[1..], b[1..]);
    }
  }

  /** Two descending sequences with the same elements start alike: each
      head is an element of the other and so bounds the other's head. */
  lemma SortedHeadsAgree(a: seq<int>, b: seq<int>)
    requires SortedDesc(a) && SortedDesc(b)
    requires multiset(a) == multiset(b)
    requires 0 < |a| && 0 < |b|
    ensures a[0] == b[0]
  {
    assert a[0] in multiset(b);
    assert b[0] in multiset(a);
    var i :| 0 <= i < |b| && b[i] == a[0];
    var j :| 0 <= j < |a| && a[j] == b[0];
  }

  /** Dropping the head removes one copy of it from the multiset. */
  lemma TailMultiset(a: seq<int>)
    requires 0 < |a|
    ensures multiset(a[1..]) == multiset(a) - multiset{a[0]}
  {
    assert a == [a[0]] + a[1..];
  }

  /** The collection test ignores which artist holds which count and in
      which order the target lists its counts. */
  lemma CompleteIgnoresOrder(owned1: seq<int>, owned2: seq<int>, target1: seq<int>, target2: seq<int>)
    requires multiset(owned1) == multiset(owned2)
    requires multiset(target1) == multiset(target2)
    requires TargetFits(target1, |owned1|)
    ensures |owned1| == |owned2| && |target1| == |target2|
    ensures Complete(owned1, target1) == Complete(owned2, target2)
  {
    assert |owned1| == |multiset(owned1)| == |owned2|;
    assert |target1| == |multiset(target1)| == |target2|;
    SortDescSorts(owned1);
    SortDescSorts(owned2);
    SortDescSorts(target1);
    SortDescSorts(target2);
    SortedUnique(SortDesc(owned1), SortDesc(owned2));
    SortedUnique(SortDesc(target1), SortDesc(target2));
  }

  /** The first position of `v` in `s`. */
  function IndexOf(s: seq<int>, v: int): (k: nat)
    requires v in s
    ensures k < |s| && s[k] == v
    ensures forall i :: 0 <= i < k ==> s[i] != v
  {
    if s[0] == v then 0
    else
      assert v in s[1..];
      1 + IndexOf(s[1..], v)
  }

  /** Replacing one element swaps one copy in the multiset. */
  lemma UpdateMultiset(s: seq<int>, k: int, x: int)
    requires 0 <= k < |s|
    ensures multiset(s[k := x]) == multiset(s) - multiset{s[k]} + multiset{x}
  {
    assert s == s[..k] + [s[k]] + s[k + 1..];
    assert s[k := x] == s[..k] + [x] + s[k + 1..];
  }

  /** Raising the first occurrence of `v` in a descending sequence keeps it descending. */
  lemma RaiseFirstKeepsSorted(s: seq<int>, v: int)
    requires SortedDesc(s) && v in s
    ensures SortedDesc(s[IndexOf(s, v) := v + 1])
  {
    var k := IndexOf(s, v);
    var s' := s[k := v + 1];
    forall a, b | 0 <= a < b < |s'|
      ensures s'[a] >= s'[b]
    {
      if a == k {
        assert s[b] <= v;
      } else if b == k {
        assert s[a] >= v && s[a] != v;
      }
    }
  }

  /** A descending rearrangement of `x` is what `SortDesc` returns. */
  lemma SortsTo(x: seq<int>, y: seq<int>)
    requires SortedDesc(y) && multiset(x) == multiset(y)
    ensures SortDesc(x) == y
  {
    SortDescSorts(x);
    SortedUnique(SortDesc(x), y);
  }

  /** Raising one element of `x` by one, and the equal element at position
      `k` of a rearrangement `s`, keeps the two rearrangements of each other. */
  lemma RaiseBoth(x: seq<int>, j: int, s: seq<int>, k: int)
    requires multiset(x) == multiset(s)
    requires 0 <= j < |x| && 0 <= k < |s| && s[k] == x[j]
    ensures multiset(x[j := x[j] + 1]) == multiset(s[k := s[k] + 1])
  {
    UpdateMultiset(s, k, s[k] + 1);
    UpdateMultiset(x, j, x[j] + 1);
  }

  /** If `s` is `x` sorted, then `x` with one element raised sorts to `s`
      with the first equal element raised. */
  lemma SortOfRaised(x: seq<int>, j: int, s: seq<int>)
    requires SortedDesc(s) && multiset(x) == multiset(s)
    requires 0 <= j < |x|
    ensures x[j] in s
    ensures SortDesc(x[j := x[j] + 1]) == s[IndexOf(s, x[j]) := x[j] + 1]
  {
    assert x[j] in multiset(s);
    var k := IndexOf(s, x[j]);
    RaiseFirstKeepsSorted(s, x[j]);
    RaiseBoth(x, j, s, k);
    SortsTo(x[j := x[j] + 1], s[k := x[j] + 1]);
  }

  /** One more painting of one kind sorts to the old sorted counts with one
      position raised by one, so every sorted position is at least as high. */
  lemma SortRaisesPointwise(owned: seq<int>, j: int)
    requires 0 <= j < |owned|
    ensures |SortDesc(owned[j := owned[j] + 1])| == |SortDesc(owned)|
    ensures forall i :: 0 <= i < |owned| ==>
      SortDesc(owned[j := owned[j] + 1])[i] >= SortDesc(owned)[i]
  {
    SortDescSorts(owned);
    SortOfRaised(owned, j, SortDesc(owned));
  }

  /** Gaining a painting never undoes sorted dominance. */
  lemma DominatesMonotone(owned: seq<int>, target: seq<int>, j: int)
    requires |target| <= |owned|
    requires 0 <= j < |owned|
    requires Dominates(owned, target)
    ensures Dominates(owned[j := owned[j] + 1], target)
  {
    SortRaisesPointwise(owned, j);
  }

  /** Gaining a painting never undoes a completed collection. */
  lemma CompleteMonotone(owned: seq<int>, target: seq<int>, j: int)
    requires TargetFits(target, |owned|)
    requires 0 <= j < |owned|
    requires Complete(owned, target)
    ensures Complete(owned[j := owned[j] + 1], target)
  {
    CompleteIffDominates(owned, target);
    CompleteIffDominates(owned[j := owned[j] + 1], target);
    SortRaisesPointwise(owned, j);
  }
}

=== FILE: wrappers.dfy ===
/** Optional values: Python's `None` versus a present value. */
module Wrappers {

  datatype Option<+T> = None | Some(value: T) {

    /** The encapsulated value, or `default` when absent. */
    function GetOr(default: T): T
    {
      match this
      case Some(v) => v
      case None => default
    }
  }
}
